=== FILE: README.md ===
# ESO archive forms and MPC object queries, modelled in Dafny

This project models the query core of two astroquery clients.

- `EsoClass` (`astroquery/eso/core.py`):
  - how `_activate_form` turns an HTML form and the caller's values into an HTTP request: which form, which URL, which encoding, which key/value pairs;
  - the query dictionaries of `query_survey` and `query_instrument`;
  - the clean-up of the CSV the archive answers with;
  - the de-duplicating `list_instruments` and `list_surveys`;
  - the header reader of `get_header`.
- `Mpc` (`astroquery/mpc/core.py`): the fixed request dictionary of `query_object_async`, its single POST, and the `get_query_payload` short-circuit of `query_object`.

Python exceptions become `Err` values of `Outcome.Result`. This covers `IndexError` from `forms[i]`, `action[0]`, `value_options[0]` and `value[0]`; `ValueError` from `int()`, from `float()` and from an unknown survey; `UnboundLocalError` when `_activate_form` never binds `fmt`; and `AssertionError` for a non-string MPC object name. The behaviour is kept as the code has it:

- an empty form action fails;
- an empty header value fails;
- a form whose method or enctype is not recognised always fails: at its first field with a value, or, when no field has one, at the send;
- a header card whose value cannot be typed ends `get_header` with that error;
- a `/` inside a quoted header string cuts the string, because the reader splits at the first `/` before it looks for quotes.

The network, the HTML parser and the table reader are parameters or are left out:

- `get` is the page fetched at a URL;
- `submit` is the archive's answer to a request;
- `fetch` is the header text of a header URL;
- `send` is the answer to an MPC POST;
- `parse` is the MPC result parser.

Files and modules:

- `outcome.dfy` (`Outcome`): results, options and the Python error kinds.
- `text.dfy` (`Text`): `split`, `join`, `in` on substrings, `strip` with Python's whitespace set, and "the piece before the last separator".
- `numerals.dfy` (`Numerals`): `str(int)`, `int(str)` and the grammar `float(str)` accepts for text with a decimal point.
- `pyvalues.dfy` (`PyValues`): caller values and `"{0}".format`.
- `eso_form.dfy` (`EsoForm`): `_activate_form`.
- `eso_query.dfy` (`EsoQuery`): the query dictionaries, `query_survey`, `query_instrument`, the CSV filter and the list builders.
- `eso_header.dfy` (`EsoHeader`): `get_header` and its card reader, with a writer for header text that the reader reads back.
- `mpc_query.dfy` (`MpcQuery`): the MPC queries.

## Model

| member | source | states |
|---|---|---|
| Text.Split | astroquery/eso/core.py:247 | `split` on one separator gives at least one piece, and exactly one piece iff the separator does not occur |
| Text.SplitPiecesFree | astroquery/eso/core.py:247 | no piece of a split holds the separator |
| Text.Before | astroquery/eso/core.py:249-251 | `s.split(sep, 1)[0]` is a prefix of `s` without the separator; it is all of `s` iff the separator does not occur, and otherwise the separator follows it |
| Text.BeforeIsFirstPiece | astroquery/eso/core.py:249-251 | `split(sep, 1)[0]` is the first piece of the full `split(sep)` |
| Text.JoinSplit | astroquery/eso/core.py:222 | joining the pieces of a split with the same separator restores the original text |
| Text.SplitJoin | astroquery/eso/core.py:218-222 | splitting a join of separator-free pieces (at least one) gives back exactly those pieces |
| Text.Strip | astroquery/eso/core.py:148 | `strip()` leaves no Python whitespace at either end and introduces no character that was not in the input |
| Text.StripPadded | astroquery/eso/core.py:250-251 | stripping whitespace padded around a non-empty stripped text gives exactly that text back |
| Text.PieceBeforeLast | astroquery/eso/core.py:129 | for text containing `/`, `split("/")[-2]` exists and is the piece between the previous separator (or the start) and the last separator |
| Text.PieceBeforeLastUnique | astroquery/eso/core.py:129 | that piece is unique, so the characterisation fixes the instrument name completely |
| Numerals.RenderInt | astroquery/eso/core.py:65 | `str(n)` starts with `-` exactly for negative numbers and is otherwise all digits, with no leading zero except for `0` itself |
| Numerals.ParseInt | astroquery/eso/core.py:262 | `int(s)` succeeds exactly on an optional sign and digits with single underscores between digits; its value is the positional value of the digits, underscores ignored, negated after a leading `-` |
| Numerals.IntRoundTrip | astroquery/eso/core.py:65 | reading back with `int` what `str` wrote gives the same integer |
| PyValues.Render | astroquery/eso/core.py:65 | `"{0}".format(v)`: a string is sent unchanged, an int as its canonical numeral `str(n)`, which `int()` reads back as the same number, booleans as `True`/`False`, `None` as `None`, any other value as its own formatted text |
| EsoForm.SelectForm | astroquery/eso/core.py:27 | `forms[i]` succeeds iff `-len <= i < len`, and then picks the i-th form, counting from the end for negative i |
| EsoForm.Origin | astroquery/eso/core.py:32 | `'/'.join(url.split('/',3)[:3])` is the prefix of the URL before its third `/` (the whole URL when there are fewer) |
| EsoForm.OriginUnique | astroquery/eso/core.py:32 | at most one prefix satisfies that description |
| EsoForm.Directory | astroquery/eso/core.py:34 | `url.rsplit('/',1)[0]` is the URL up to its last `/` (the whole URL when there is none) |
| EsoForm.DirectoryUnique | astroquery/eso/core.py:34 | at most one prefix satisfies that description |
| EsoForm.ResolveAction | astroquery/eso/core.py:29-34 | an action containing `://` is used as is; an action starting with `/` is appended to the page's origin; any other action is appended, after a `/`, to the page's directory; an empty action fails, and only an empty action fails |
| EsoForm.ChooseFormat | astroquery/eso/core.py:36-45 | GET iff the method is `GET`; plain POST iff the method is `POST` with no enctype; multipart and urlencoded iff the method is `POST` with that enctype; in every other case no format is chosen |
| EsoForm.DefaultValue | astroquery/eso/core.py:49-63 | an input's own value; every selected option of a multiple select; a single select's value, or its first option; failure iff a single select has neither a value nor options |
| EsoForm.FinalValue | astroquery/eso/core.py:64-65 | a caller's value replaces the form's, rendered as text; the form's default is still computed first, so its failure wins |
| EsoForm.Entries | astroquery/eso/core.py:66-81 | every pair carries the field's key; a multipart file input gives one placeholder pair; a list gives one pair per item, in order; multipart pairs are parts, other pairs are plain |
| EsoForm.FieldPairs | astroquery/eso/core.py:64-81 | an absent value sends nothing; a present value with no chosen format fails; otherwise the value's entries are sent |
| EsoForm.Payload | astroquery/eso/core.py:47-81 | every key sent is a field of the form, and every caller value for a field is sent as its rendered text (or as the file placeholder); no fields give no pairs |
| EsoForm.PayloadAppend | astroquery/eso/core.py:47-81 | the payload of consecutive fields is the first payload followed by the second, with the first failure winning |
| EsoForm.PayloadOne | astroquery/eso/core.py:47-81 | the payload of a single field is exactly that field's pairs, failure included |
| EsoForm.CallerValueIsSent | astroquery/eso/core.py:47-81 | in a successful payload, a field the caller gave a value for is really sent: some pair carries its name and the rendered value, as a plain pair, a multipart part, or the placeholder of a multipart file input |
| EsoForm.UnchosenFormatFails | astroquery/eso/core.py:36-45 | when no format was chosen, any field with a value makes the payload fail |
| EsoForm.ActivateForm | astroquery/eso/core.py:24-91 | a request is built iff the form exists, its action resolves, a format is chosen and the payload builds; the first of those steps to fail gives the error, and a payload built without a format fails as the unbound `fmt`; the request goes to the resolved URL and carries the built payload; the verb is GET iff the form's method is `GET` and POST iff it is `POST`; files go out iff multipart POST and form data iff urlencoded POST; query parameters only for GET or plain POST |
| EsoHeader.ReadLine | astroquery/eso/core.py:247-251 | a line is a card iff it has `=`; its key is the stripped text before the first `=`, its value the stripped text before the first `/` after it; an end marker is a line without `=` that starts with `END` |
| EsoHeader.ReadCommentedCard | astroquery/eso/core.py:249-251 | a line `pre=val/comment`, with no `=` in `pre` and no `/` in `val`, is the card of the stripped `pre` and the stripped `val`: whatever follows the first `/` is dropped |
| EsoHeader.ReadUncommentedCard | astroquery/eso/core.py:249-251 | a line `pre=val` without a `/` after its first `=` is the card of the stripped `pre` and `val` |
| EsoHeader.Unquote | astroquery/eso/core.py:258 | `v[1:-1]`: the text between the first and last characters, empty for shorter text |
| EsoHeader.TypeValue | astroquery/eso/core.py:253-262 | `T` and `F` are logicals; a leading quote makes a string; otherwise a `.` makes a real literal that `float()` must accept; otherwise `int()` must accept it; an empty value fails on `value[0]` with `IndexError`, and every other failure is a `ValueError` |
| EsoHeader.Absorb | astroquery/eso/core.py:252-263 | a `COMMENT` key leaves the header unchanged; any other key is set to its typed value, and the card fails iff typing fails |
| EsoHeader.Classify | astroquery/eso/core.py:247-251 | each line of the header text is classified on its own: one classified line per text line, in order |
| EsoHeader.ParseLines | astroquery/eso/core.py:247-265 | reading lines never removes keys, and every key it adds from lines classified as the reader classifies them is a valid non-comment key |
| EsoHeader.ParseHeader | astroquery/eso/core.py:246-265 | every key of a read header is a valid non-comment key |
| EsoHeader.EndStopsParsing | astroquery/eso/core.py:264-265 | nothing after the first end marker affects the header |
| EsoHeader.ParseOneMore | astroquery/eso/core.py:247-263 | reading one more line continues from the header read so far, and a failure stays a failure |
| EsoHeader.UnreadableCardFails | astroquery/eso/core.py:247-263 | a non-comment card whose value cannot be typed, reached before any end marker, ends the read with the typing error whatever follows it |
| EsoHeader.UnreadableLineFails | astroquery/eso/core.py:246-263 | reading a header text fails with the typing error of its first untypable non-comment card before an end marker |
| EsoHeader.LaterCardOverwrites | astroquery/eso/core.py:263 | a later card for a key replaces its earlier value |
| EsoHeader.IgnoredLineKeepsHeader | astroquery/eso/core.py:248-252 | lines without `=` that are not end markers, and comment cards, change nothing |
| EsoHeader.CardRoundTrip | astroquery/eso/core.py:247-262 | a card written as `KEY = value` reads back as the same key and value text, and that text types back to the same value |
| EsoHeader.CardsRoundTrip | astroquery/eso/core.py:247-263 | reading written cards stores exactly their values, later cards winning |
| EsoHeader.CardIsOneLine | astroquery/eso/core.py:247 | a written card holds no line break |
| EsoHeader.WrittenLinesSplitBack | astroquery/eso/core.py:247 | written header text splits at line breaks into exactly the written cards |
| EsoHeader.WrittenLinesClassified | astroquery/eso/core.py:248-251 | each written card is read back as a card with its entry's key and the value's text |
| EsoHeader.HeaderRoundTrip | astroquery/eso/core.py:246-265 | a header written as lines and read back is the map of its cards |
| EsoHeader.EmptyHeader | astroquery/eso/core.py:246-265 | an empty header text is read as the empty header |
| EsoHeader.MapResults | astroquery/eso/core.py:242-266 | the loop over identifiers: all values, one per element and in order, iff every step succeeds; otherwise the failure of the first step that fails |
| EsoHeader.GetHeader | astroquery/eso/core.py:239-267 | one header per identifier, in order, each the reading of that identifier's header text; a single identifier is treated as a list of one; the result fails iff some header fails, with the first failure |
| EsoQuery.RowCap | astroquery/eso/core.py:176-179 | the row cap is the configured limit when that is not negative, else 10000 |
| EsoQuery.QueryDict | astroquery/eso/core.py:209-214 | the caller's arguments plus `wdbo=csv/download` and the row cap, which override any caller values for those keys; every other argument is unchanged |
| EsoQuery.SurveyQueryDict | astroquery/eso/core.py:169-179 | an unlisted survey fails with the source's message, and only an unlisted survey fails; otherwise the dictionary adds the survey as `phase3_program` to the query dictionary |
| EsoQuery.QuerySurvey | astroquery/eso/core.py:169-180 | an unlisted survey fails with the source's message; a listed one submits the survey form with the survey query dictionary, exactly as `_activate_form` builds it; whatever a built request sends under `phase3_program`, `wdbo` and `max_rows_returned` is the survey name, `csv/download` and the row cap (or the placeholder of a multipart file input), and a key with no field on the form is not sent |
| EsoQuery.SurveyIsSent | astroquery/eso/core.py:169-180 | when the survey form has a `phase3_program` field, the request really carries the survey name under that key |
| EsoQuery.DataLines | astroquery/eso/core.py:218-221 | the kept lines are exactly the lines that are non-empty and do not start with `#` |
| EsoQuery.DataLinesAppend | astroquery/eso/core.py:218-221 | filtering keeps line order: the data lines of consecutive blocks are those of each block in turn |
| EsoQuery.FilterLines | astroquery/eso/core.py:217-221 | the loop keeps exactly the data lines of its input, in order |
| EsoQuery.DataLinesRejoin | astroquery/eso/core.py:222 | joined data lines are empty iff there are none, and otherwise split back into the same lines |
| EsoQuery.CsvBody | astroquery/eso/core.py:216-222 | no table iff the answer contains `# No data returned !`; otherwise the data lines after the first line, joined with newlines, so that the table reader sees exactly those lines |
| EsoQuery.QueryInstrument | astroquery/eso/core.py:203-224 | opening the form in a browser returns nothing; otherwise the instrument form is submitted with the query dictionary, and whatever the request sends under `max_rows_returned` is the row cap or a multipart file placeholder (nothing is sent when the form has no such field); the call fails iff building the request fails; there is no table iff the answer says no data, and otherwise the table is the answer's data lines after the first line, joined with newlines |
| EsoQuery.InstrumentOf | astroquery/eso/core.py:128-129 | a link names an instrument iff it contains the instrument form prefix, and the name is the path segment before the last `/` |
| EsoQuery.SurveyOf | astroquery/eso/core.py:148-149 | an option names a survey iff its stripped text does not contain `Any`, and the name is exactly that stripped text |
| EsoQuery.Names | astroquery/eso/core.py:127-129 | every name found in some element is collected, and every collected name was found in some element |
| EsoQuery.NamesAppend | astroquery/eso/core.py:127-129 | names keep the order of the elements they come from: the names of consecutive lists are those of the first, then those of the second |
| EsoQuery.Unique | astroquery/eso/core.py:130-131 | the reference list without repeats: its elements are distinct and are exactly the input's elements |
| EsoQuery.UniqueKeepsFirstOccurrenceOrder | astroquery/eso/core.py:130-131 | the names come out in the order of their first occurrences |
| EsoQuery.Dedup | astroquery/eso/core.py:130-131 | the list builders' loop computes exactly the reference list without repeats |
| EsoQuery.ListInstruments | astroquery/eso/core.py:115-132 | the instrument list is the names the links give, in link order, with each repeat after its first occurrence dropped; it has no repeats and holds exactly those names |
| EsoQuery.ListSurveys | astroquery/eso/core.py:134-151 | the survey list is the names the options give, in option order, with each repeat after its first occurrence dropped; it has no repeats, holds exactly those names, and no entry mentions `Any` or has surrounding whitespace |
| MpcQuery.RequestPayload | astroquery/mpc/core.py:133-149 | a non-string name fails the assertion; otherwise exactly four keys: `object_name` is the name, plus the fixed user name, password and content type |
| MpcQuery.QueryObjectAsync | astroquery/mpc/core.py:133-161 | asking for the payload returns it and makes no request; otherwise exactly one POST of that payload to the observation URL with the configured timeout, whose answer is returned |
| MpcQuery.QueryObject | astroquery/mpc/core.py:97-101 | fails exactly for a non-string name; asking for the payload makes no request and returns a payload; otherwise one request and a parsed answer |
| MpcQuery.PayloadPassesThrough | astroquery/mpc/core.py:97-99 | the payload `query_object` returns is exactly the one `query_object_async` built |
| MpcQuery.ParsedAnswerOfThePost | astroquery/mpc/core.py:97-101 | without the payload flag, the result is the parse of the answer to the single POST |
| MpcQuery.PayloadDependsOnlyOnName | astroquery/mpc/core.py:133-152 | the payload depends on the object name alone, not on the configuration or the transport |

## Left out

- HTTP requests, `webbrowser.open`, and decoding an answer's text encoding: the fetched pages and answers are parameters.
- HTML parsing with lxml: a page is a list of forms, and each form is a list of fields of known kinds. The instrument page is the list of its link targets; the survey selector is the list of its option texts. A form's action is a string: a form without an `action` attribute (a `TypeError` on `None` in the code) is not modelled. A header page is the text of its first `<pre>` element; a page without one (an `IndexError` in the code) and an empty `<pre>` (an `AttributeError` on `None`) are not modelled.
- `_login`, the keyring and password prompt, and `data_retrieval`: these are interactive, credential and download logic.
- The caching of the instrument and survey lists: a cache changes only when the lists are fetched, not what they hold.
- `ascii.read` and `Table.read`: the model ends with the text handed to the table reader.
- PyValues.Render: a float, a list or any other value is given by the text its formatting produces (`PyOther`); Python's `__format__` and `repr` of those types are not computed.
- Float values of header cards: a real literal is checked against Python's `float()` grammar for text with a decimal point and kept as text, because floating point is outside the model.
- `int()` and `strip()` on non-ASCII digits: only ASCII digits are read; the whitespace set is Python's.
- Python 2: `int()`, `float()`, `str.strip()` and `str` follow Python 3.6 or later. Underscores between digits are accepted, and every text object name is a `str`. Under Python 2, `int("1_0")` and `float("1_0.5")` raise `ValueError`, and a `unicode` object name fails the `isinstance(object_name, str)` assertion. That behaviour is not modelled.
- The MPC package does not import as written: `astroquery/mpc/core.py:24` imports `OBS_SERVER` and `ORBITS_SERVER`, which `astroquery/mpc/__init__.py` does not define (it defines `SERVER`). The observation URL and timeout are therefore configuration parameters.
- `Mpc.query_orbital_elements` has no body; `ORBS_URL` and `RETRIEVAL_TIMEOUT` are unused by the modelled calls. `_parse_result` is not defined in `astroquery/mpc/core.py`: it is the `parse` parameter, and the `verbose` flag passed to it is folded into that parameter. The configured values (the timeout defaults to 60 seconds, astroquery/mpc/__init__.py:24) are the fields of `Config`, not constants.
- `query_parameters` and a payload classifier do not exist in `astroquery/mpc/core.py`, so the model has none.
- The MPC example plots and demo scripts, and the tests that need the network or call functions that `astroquery/mpc/core.py` does not define.
- EsoHeader.CardRoundTrip: only for cards whose quoted strings contain no `/` or line break and whose keys are valid, because the reader cuts a value at its first `/`. The same restriction applies to EsoHeader.CardsRoundTrip and EsoHeader.HeaderRoundTrip.
- EsoQuery.QuerySurvey: states what the request sends, not the table read from the answer, because reading the CSV table is left out.

=== FILE: eso_form.dfy ===
/** Submitting an HTML form of the ESO archive (`EsoClass._activate_form`).

    The HTML layer is abstracted: a page is its URL and the forms found in it,
    and each form control is reported with the value the HTML layer gives it.
    Submitting a form yields the `Request` that would be sent; sending it is
    left to the caller.
 */
module EsoForm {
  import opened Outcome
  import opened Text
  import opened PyValues

  const MULTIPART := "multipart/form-data"
  const URLENCODED := "application/x-www-form-urlencoded"
  const OCTET_STREAM := "application/octet-stream"

  /** A form control as the HTML layer reports it. */
  datatype Control =
    /** `<input>`: its current value and its `type` attribute, when present */
    | InputControl(value: Option<string>, typeAttr: Option<string>)
    /** single `<select>`: the selected value, and the values of its options */
    | SelectOne(value: Option<string>, options: seq<string>)
    /** `<select multiple>`: the selected values, in document order */
    | SelectMany(selected: seq<string>)
    /** any other control (a textarea, or a radio or checkbox group) */
    | OtherControl

  datatype Field = Field(name: string, control: Control)

  /** A form: its `action`, its `method` as the HTML layer reports it (upper
      case), its `enctype` attribute when present, and its fields in
      document order, one per distinct name. */
  datatype Form = Form(action: string, httpMethod: string, enctype: Option<string>, fields: seq<Field>)

  /** A fetched page: the URL it came from and the forms it holds. */
  datatype Page = Page(url: string, forms: seq<Form>)

  /** How the payload is submitted. */
  datatype Format = GetFormat | PostFormat | MultipartFormat | UrlEncodedFormat

  /** The value a field submits: none, one text, or a list of texts. */
  datatype Value = Absent | Scalar(text: string) | Listed(items: seq<string>)

  /** The second half of a payload pair: a bare value, a multipart
      `('', value)` part, or the multipart placeholder for a file upload. */
  datatype Entry =
    | Plain(text: string)
    | Part(filename: string, text: string)
    | FilePart(filename: string, content: string, mime: string)

  type Pair = (string, Entry)

  datatype Verb = GET | POST

  /** Where the payload travels: query parameters, multipart files, or a url-encoded body. */
  datatype Channel = Params | Files | Data

  datatype Request = Request(verb: Verb, url: string, channel: Channel, payload: seq<Pair>)

  function Min(a: int, b: int): int
  {
    if a <= b then a else b
  }

  /** Python's `forms[index]`, negative indices counting from the end. */
  function SelectForm(forms: seq<Form>, index: int): (r: Result<Form>)
    ensures r.Ok? <==> -|forms| <= index < |forms|
    ensures r.Ok? && index >= 0 ==> r.value == forms[index]
    ensures r.Ok? && index < 0 ==> r.value == forms[|forms| + index]
  {
    if 0 <= index < |forms| then Ok(forms[index])
    else if -|forms| <= index < 0 then Ok(forms[|forms| + index])
    else Err(IndexError("list index out of range"))
  }

  /** `o` is the scheme-and-host part of `url`: the part before the third `/`,
      or all of `url` when it has fewer than three. */
  ghost predicate IsOriginOf(o: string, url: string)
  {
    && |o| <= |url| && o == url[..|o|]
    && (|o| == |url| || url[|o|] == '/')
    && multiset(o)['/'] == Min(2, multiset(url)['/'])
  }

  /** `d` is the directory part of `url`: the part before its last `/`, or
      all of `url` when it has none. */
  ghost predicate IsDirectoryOf(d: string, url: string)
  {
    && |d| <= |url| && d == url[..|d|]
    && ('/' !in url ==> d == url)
    && ('/' in url ==> |d| < |url| && url[|d|] == '/' && '/' !in url[|d| + 1..])
  }

  /** Cutting `s` at its first separator, at `i`, leaves one separator fewer
      behind the cut. */
  lemma CountAfterFirstCut<T>(s: seq<T>, sep: T, i: nat)
    requires i < |s| && s[i] == sep && sep !in s[..i]
    ensures multiset(s)[sep] == 1 + multiset(s[i + 1..])[sep]
  {
    assert s == s[..i] + [sep] + s[i + 1..];
    assert multiset(s[..i])[sep] == 0;
  }

  /** The first `k` pieces of `s` split at `sep`, joined back with `sep`. */
  function JoinFirst<T(==)>(s: seq<T>, sep: T, k: nat): seq<T>
  {
    var parts := Split(s, sep);
    Join(parts[..Min(k, |parts|)], sep)
  }

  /** Taking `k` elements of a sequence with head `h` takes `h` and `k - 1`
      elements of the tail. */
  lemma TakeCons<U>(parts: seq<U>, h: U, tail: seq<U>, k: nat)
    requires parts == [h] + tail && k >= 1
    ensures parts[..Min(k, |parts|)] == [h] + tail[..Min(k - 1, |tail|)]
  {
  }

  lemma JoinFirstStep<T>(s: seq<T>, sep: T, k: nat, i: nat)
    requires i < |s| && s[i] == sep && sep !in s[..i] && k > 1
    ensures JoinFirst(s, sep, k) == s[..i] + [sep] + JoinFirst(s[i + 1..], sep, k - 1)
  {
    var tail := Split(s[i + 1..], sep);
    var pieces := tail[..Min(k - 1, |tail|)];
    calc {
      JoinFirst(s, sep, k);
    ==
      Join(Split(s, sep)[..Min(k, |Split(s, sep)|)], sep);
    == { assert Split(s, sep)[..Min(k, |Split(s, sep)|)] == [s[..i]] + pieces by {
           SplitAtFirst(s, sep, i);
           TakeCons(Split(s, sep), s[..i], tail, k);
         }
       }
      Join([s[..i]] + pieces, sep);
    == { JoinCons(s[..i], pieces, sep); }
      s[..i] + [sep] + Join(pieces, sep);
    }
  }

  /** `r` is a prefix of `s` holding `n` separators and ending at a separator
      of `s` or at its end. */
  ghost predicate CutBefore<T>(s: seq<T>, sep: T, r: seq<T>, n: nat)
  {
    && |r| <= |s| && r == s[..|r|]
    && (|r| == |s| || s[|r|] == sep)
    && multiset(r)[sep] == n
  }

  lemma CutBeforeStep<T>(s: seq<T>, sep: T, i: nat, r': seq<T>, n: nat)
    requires i < |s| && s[i] == sep && sep !in s[..i]
    requires CutBefore(s[i + 1..], sep, r', n)
    ensures CutBefore(s, sep, s[..i] + [sep] + r', n + 1)
  {
    var rest := s[i + 1..];
    var r := s[..i] + [sep] + r';
    assert multiset(r)[sep] == 1 + multiset(r')[sep] by {
      assert multiset(s[..i])[sep] == 0;
    }
    assert s[..|r|] == s[..i] + [sep] + rest[..|r'|];
    assert |r| < |s| ==> s[|r|] == rest[|r'|];
  }

  lemma FirstPieceIsPrefix<T>(s: seq<T>, sep: T, k: nat)
    requires k >= 1 && (sep !in s || k == 1)
    ensures CutBefore(s, sep, JoinFirst(s, sep, k), Min(k - 1, multiset(s)[sep]))
  {
    var parts := Split(s, sep);
    if sep !in s {
      assert parts[..Min(k, |parts|)] == [s];
      assert multiset(s)[sep] == 0;
    } else {
      var i := IndexOf(s, sep);
      assert parts[..1] == [s[..i]] by {
        SplitAtFirst(s, sep, i);
      }
      assert multiset(s[..i])[sep] == 0;
    }
  }

  /** The first `k` pieces of a split, joined back, are the prefix of `s` before
      its `k`-th separator. */
  lemma {:induction false} JoinedPiecesArePrefix<T>(s: seq<T>, sep: T, k: nat)
    requires k >= 1
    ensures CutBefore(s, sep, JoinFirst(s, sep, k), Min(k - 1, multiset(s)[sep]))
    decreases |s|, 1
  {
    if sep !in s || k == 1 {
      FirstPieceIsPrefix(s, sep, k);
    } else {
      JoinedPiecesStep(s, sep, k, IndexOf(s, sep));
    }
  }

  /** The inductive step: the claim for the rest after the first separator, at
      `i`, gives the claim for `s`. */
  lemma {:induction false} JoinedPiecesStep<T>(s: seq<T>, sep: T, k: nat, i: nat)
    requires i < |s| && s[i] == sep && sep !in s[..i] && k > 1
    ensures CutBefore(s, sep, JoinFirst(s, sep, k), Min(k - 1, multiset(s)[sep]))
    decreases |s|, 0
  {
    var rest := s[i + 1..];
    JoinedPiecesArePrefix(rest, sep, k - 1);
    var r' := JoinFirst(rest, sep, k - 1);
    var n' := Min(k - 2, multiset(rest)[sep]);
    assert CutBefore(s, sep, s[..i] + [sep] + r', n' + 1) by {
      CutBeforeStep(s, sep, i, r', n');
    }
    assert JoinFirst(s, sep, k) == s[..i] + [sep] + r' by {
      JoinFirstStep(s, sep, k, i);
    }
    assert Min(k - 1, multiset(s)[sep]) == n' + 1 by {
      CountAfterFirstCut(s, sep, i);
    }
  }

  /** `'/'.join(url.split('/', 3)[:3])`. The first three pieces of a split
      with at most three cuts are the first three pieces of the full split. */
  function Origin(url: string): (r: string)
    ensures IsOriginOf(r, url)
  {
    JoinedPiecesArePrefix(url, '/', 3);
    JoinFirst(url, '/', 3)
  }

  /** `url.rsplit('/', 1)[0]`. */
  function Directory(url: string): (r: string)
    ensures IsDirectoryOf(r, url)
  {
    if '/' in url then url[..LastIndexOf(url, '/')] else url
  }

  /** A url has only one origin. */
  lemma OriginUnique(o1: string, o2: string, url: string)
    requires IsOriginOf(o1, url) && IsOriginOf(o2, url)
    ensures o1 == o2
  {
    if |o1| < |o2| {
      PrefixHasMoreSlashes(url, |o1|, |o2|);
    } else if |o2| < |o1| {
      PrefixHasMoreSlashes(url, |o2|, |o1|);
    }
  }

  lemma PrefixHasMoreSlashes(url: string, a: nat, b: nat)
    requires a < b <= |url| && url[a] == '/'
    ensures multiset(url[..b])['/'] > multiset(url[..a])['/']
  {
    assert url[..b] == url[..a] + [url[a]] + url[a + 1..b];
  }

  /** A url has only one directory part. */
  lemma DirectoryUnique(d1: string, d2: string, url: string)
    requires IsDirectoryOf(d1, url) && IsDirectoryOf(d2, url)
    ensures d1 == d2
  {
  }

  /** The URL a form is submitted to: an absolute `action` as it stands, a
      root-relative one after the page's origin, any other one in the page's
      directory. An empty `action` fails as indexing its first character does. */
  function ResolveAction(action: string, pageUrl: string): (r: Result<string>)
    ensures Contains(action, "://") ==> r == Ok(action)
    ensures r.Err? <==> action == []
    ensures r.Ok? && !Contains(action, "://") && action[0] == '/' ==>
              var cut := |r.value| - |action|;
              cut >= 0 && r.value[cut..] == action && IsOriginOf(r.value[..cut], pageUrl)
    ensures r.Ok? && !Contains(action, "://") && action[0] != '/' ==>
              var cut := |r.value| - |action| - 1;
              && cut >= 0 && r.value[cut..] == "/" + action
              && IsDirectoryOf(r.value[..cut], pageUrl)
  {
    if Contains(action, "://") then Ok(action)
    else if |action| == 0 then Err(IndexError("string index out of range"))
    else if action[0] == '/' then
      var o := Origin(pageUrl);
      Appended(o, action);
      Ok(o + action)
    else
      var d := Directory(pageUrl);
      Appended(d, "/" + action);
      assert d + "/" + action == d + ("/" + action);
      Ok(d + "/" + action)
  }

  /** Cutting a concatenation where its second part starts gives back both parts. */
  lemma Appended(prefix: string, suffix: string)
    ensures var r := prefix + suffix;
            var cut := |r| - |suffix|;
            cut == |prefix| && r[..cut] == prefix && r[cut..] == suffix
  {
  }

  /** The submission format for a form's method and enctype; `None` where the
      source leaves its format variable unassigned. */
  function ChooseFormat(httpMethod: string, enctype: Option<string>): (r: Option<Format>)
    ensures r == Some(GetFormat) <==> httpMethod == "GET"
    ensures r == Some(PostFormat) <==> httpMethod == "POST" && enctype.None?
    ensures r == Some(MultipartFormat) <==> httpMethod == "POST" && enctype == Some(MULTIPART)
    ensures r == Some(UrlEncodedFormat) <==> httpMethod == "POST" && enctype == Some(URLENCODED)
  {
    if httpMethod == "GET" then Some(GetFormat)
    else if httpMethod == "POST" then
      match enctype
      case None => Some(PostFormat)
      case Some(e) =>
        if e == MULTIPART then Some(MultipartFormat)
        else if e == URLENCODED then Some(UrlEncodedFormat)
        else None
    else None
  }

  /** The request verb and payload channel each format submits with. */
  function Transport(fmt: Format): (Verb, Channel)
  {
    match fmt
    case GetFormat => (GET, Params)
    case PostFormat => (POST, Params)
    case MultipartFormat => (POST, Files)
    case UrlEncodedFormat => (POST, Data)
  }

  /** An input whose `type` attribute is `file`. */
  predicate IsFile(c: Control)
  {
    c.InputControl? && c.typeAttr == Some("file")
  }

  /** The value a control submits before the caller's values are applied. A
      single select with nothing selected falls back to its first option, and
      fails when it has none. */
  function DefaultValue(c: Control): (r: Result<Value>)
    ensures r.Err? <==> c.SelectOne? && c.value.None? && c.options == []
    ensures r.Ok? && r.value.Absent? <==> c.OtherControl? || (c.InputControl? && c.value.None?)
    ensures r.Ok? && r.value.Listed? <==> c.SelectMany?
    ensures c.SelectMany? ==> r == Ok(Listed(c.selected))
    ensures (c.InputControl? || c.SelectOne?) && c.value.Some? ==> r == Ok(Scalar(c.value.value))
    ensures c.SelectOne? && c.value.None? && c.options != [] ==> r == Ok(Scalar(c.options[0]))
  {
    match c
    case InputControl(v, _) => Ok(if v.Some? then Scalar(v.value) else Absent)
    case SelectOne(v, options) =>
      if v.Some? then Ok(Scalar(v.value))
      else if |options| == 0 then Err(IndexError("list index out of range"))
      else Ok(Scalar(options[0]))
    case SelectMany(selected) => Ok(Listed(selected))
    case OtherControl => Ok(Absent)
  }

  /** The value a field submits once the caller's values are applied: a name
      the caller gave always submits the caller's value as text. The default
      is worked out first, so its failure is not masked by the caller's value. */
  function FinalValue(f: Field, inputs: map<string, PyValue>): (r: Result<Value>)
    ensures r.Err? <==> DefaultValue(f.control).Err?
    ensures r.Ok? && f.name in inputs ==> r.value == Scalar(Render(inputs[f.name]))
    ensures r.Ok? && f.name !in inputs ==> r == DefaultValue(f.control)
  {
    var v :- DefaultValue(f.control);
    if f.name in inputs then Ok(Scalar(Render(inputs[f.name]))) else Ok(v)
  }

  /** The multipart placeholder sent for a file upload. */
  const FILE_PLACEHOLDER: Entry := FilePart("", "", OCTET_STREAM)

  /** Entry `e` carries the text `t`, bare or as a multipart part. */
  predicate Carries(e: Entry, t: string)
  {
    e == Plain(t) || e == Part("", t)
  }

  /** The pairs one present value turns into: one per list item, or one for a
      single text; in multipart submissions a file input sends its
      placeholder instead, and other values travel as `('', value)` parts. */
  function Entries(fmt: Format, key: string, v: Value, isFile: bool): (r: seq<Pair>)
    requires !v.Absent?
    ensures forall k :: 0 <= k < |r| ==> r[k].0 == key
    ensures fmt == MultipartFormat && isFile ==> r == [(key, FILE_PLACEHOLDER)]
    ensures !(fmt == MultipartFormat && isFile) ==>
              && (v.Scalar? ==> |r| == 1 && Carries(r[0].1, v.text))
              && (v.Listed? ==> |r| == |v.items| && forall k :: 0 <= k < |r| ==> Carries(r[k].1, v.items[k]))
    ensures fmt != MultipartFormat ==> forall k :: 0 <= k < |r| ==> r[k].1.Plain?
    ensures fmt == MultipartFormat ==> forall k :: 0 <= k < |r| ==> !r[k].1.Plain?
  {
    if fmt == MultipartFormat then
      if isFile then [(key, FILE_PLACEHOLDER)]
      else
        match v
        case Scalar(t) => [(key, Part("", t))]
        case Listed(items) => seq(|items|, k requires 0 <= k < |items| => (key, Part("", items[k])))
    else
      match v
      case Scalar(t) => [(key, Plain(t))]
      case Listed(items) => seq(|items|, k requires 0 <= k < |items| => (key, Plain(items[k])))
  }

  /** The pairs one field contributes. A field without a value contributes
      none; a field with one, while no format was chosen, fails as reading the
      unassigned format variable does. */
  function FieldPairs(fmt: Option<Format>, f: Field, inputs: map<string, PyValue>): (r: Result<seq<Pair>>)
    ensures r.Err? <==> FinalValue(f, inputs).Err? || (fmt.None? && !FinalValue(f, inputs).value.Absent?)
    ensures r.Ok? && FinalValue(f, inputs).value.Absent? ==> r.value == []
    ensures r.Ok? && !FinalValue(f, inputs).value.Absent? ==>
              r.value == Entries(fmt.value, f.name, FinalValue(f, inputs).value, IsFile(f.control))
  {
    var v :- FinalValue(f, inputs);
    if v.Absent? then Ok([])
    else if fmt.None? then Err(UnboundLocalError("fmt"))
    else Ok(Entries(fmt.value, f.name, v, IsFile(f.control)))
  }

  /** The names of a form's fields. */
  function FieldNames(fields: seq<Field>): set<string>
  {
    set k | 0 <= k < |fields| :: fields[k].name
  }

  /** Every pair a caller-given name produced carries the caller's value as
      text, or is the file placeholder of a multipart file input. */
  predicate CallerValuesSent(fmt: Option<Format>, pairs: seq<Pair>, inputs: map<string, PyValue>)
  {
    forall k :: 0 <= k < |pairs| && pairs[k].0 in inputs ==>
      var t := Render(inputs[pairs[k].0]);
      if fmt == Some(MultipartFormat) then pairs[k].1 == Part("", t) || pairs[k].1 == FILE_PLACEHOLDER
      else pairs[k].1 == Plain(t)
  }

  /** Python's sequencing of two steps that each may raise: the first
      failure wins, otherwise the pairs of both, in order. */
  function Then(x: Result<seq<Pair>>, y: Result<seq<Pair>>): Result<seq<Pair>>
  {
    if x.Err? then x else if y.Err? then y else Ok(x.value + y.value)
  }

  lemma ThenAssociative(x: Result<seq<Pair>>, y: Result<seq<Pair>>, z: Result<seq<Pair>>)
    ensures Then(x, Then(y, z)) == Then(Then(x, y), z)
  {
    if x.Ok? && y.Ok? && z.Ok? {
      assert x.value + (y.value + z.value) == (x.value + y.value) + z.value;
    }
  }

  /** The payload of a form: the pairs of its fields, field after field. */
  function Payload(fmt: Option<Format>, fields: seq<Field>, inputs: map<string, PyValue>): (r: Result<seq<Pair>>)
    ensures r.Ok? ==> forall k :: 0 <= k < |r.value| ==> r.value[k].0 in FieldNames(fields)
    ensures r.Ok? ==> CallerValuesSent(fmt, r.value, inputs)
    ensures fields == [] ==> r == Ok([])
    decreases |fields|
  {
    if fields == [] then Ok([])
    else
      var head := FieldPairs(fmt, fields[0], inputs);
      var tail := Payload(fmt, fields[1..], inputs);
      assert tail.Ok? ==> forall k :: 0 <= k < |tail.value| ==> tail.value[k].0 in FieldNames(fields) by {
        if tail.Ok? {
          forall k | 0 <= k < |tail.value| ensures tail.value[k].0 in FieldNames(fields) {
            var j :| 0 <= j < |fields[1..]| && fields[1..][j].name == tail.value[k].0;
            assert fields[j + 1].name == tail.value[k].0;
          }
        }
      }
      Then(head, tail)
  }

  /** The payload of consecutive fields is the payload of the first ones
      followed by that of the rest, so pairs appear in field order; the first
      failing field decides the failure. */
  lemma {:induction false} PayloadAppend(fmt: Option<Format>, a: seq<Field>, b: seq<Field>, inputs: map<string, PyValue>)
    ensures Payload(fmt, a + b, inputs) == Then(Payload(fmt, a, inputs), Payload(fmt, b, inputs))
    decreases |a|
  {
    if a == [] {
      assert a + b == b;
      assert Payload(fmt, b, inputs).Ok? ==> [] + Payload(fmt, b, inputs).value == Payload(fmt, b, inputs).value;
    } else {
      assert (a + b)[0] == a[0];
      assert (a + b)[1..] == a[1..] + b;
      PayloadAppend(fmt, a[1..], b, inputs);
      ThenAssociative(FieldPairs(fmt, a[0], inputs), Payload(fmt, a[1..], inputs), Payload(fmt, b, inputs));
    }
  }

  /** A single field's payload is exactly the pairs that field contributes;
      with `PayloadAppend` this makes the payload the field-by-field
      concatenation of the fields' pairs. */
  lemma PayloadOne(fmt: Option<Format>, f: Field, inputs: map<string, PyValue>)
    ensures Payload(fmt, [f], inputs) == FieldPairs(fmt, f, inputs)
  {
    assert [f][0] == f && [f][1..] == [];
    var head := FieldPairs(fmt, f, inputs);
    assert head.Ok? ==> head.value + [] == head.value;
  }

  /** The entry a caller's value travels as, given the format and whether the
      field is a file input. */
  function SentEntry(fmt: Format, isFile: bool, t: string): Entry
  {
    if fmt == MultipartFormat then (if isFile then FILE_PLACEHOLDER else Part("", t)) else Plain(t)
  }

  /** A field the caller gave a value for is sent: a successful payload holds
      the field's name paired with the caller's value rendered as text (the
      placeholder for a multipart file input), right after the pairs of the
      fields before it. A successful payload with such a field also implies
      that a format was chosen. */
  lemma CallerValueIsSent(fmt: Option<Format>, fields: seq<Field>, inputs: map<string, PyValue>, k: nat)
    returns (j: nat)
    requires k < |fields| && fields[k].name in inputs && Payload(fmt, fields, inputs).Ok?
    ensures fmt.Some?
    ensures j < |Payload(fmt, fields, inputs).value|
    ensures Payload(fmt, fields, inputs).value[j]
            == (fields[k].name, SentEntry(fmt.value, IsFile(fields[k].control), Render(inputs[fields[k].name])))
  {
    var f, pre, rest := fields[k], fields[..k], fields[k + 1..];
    assert fields == pre + ([f] + rest);
    PayloadAppend(fmt, pre, [f] + rest, inputs);
    PayloadAppend(fmt, [f], rest, inputs);
    PayloadOne(fmt, f, inputs);
    var mine := FieldPairs(fmt, f, inputs);
    assert mine.Ok?;
    var t := Render(inputs[f.name]);
    assert FinalValue(f, inputs) == Ok(Scalar(t));
    var es := Entries(fmt.value, f.name, Scalar(t), IsFile(f.control));
    assert mine.value == es && |es| == 1;
    assert es[0] == (f.name, SentEntry(fmt.value, IsFile(f.control), t));
    var before := Payload(fmt, pre, inputs).value;
    j := |before|;
    assert Payload(fmt, fields, inputs).value == before + (es + Payload(fmt, rest, inputs).value);
  }

  /** When no format was chosen, a form with any field that has a value fails. */
  lemma UnchosenFormatFails(fields: seq<Field>, inputs: map<string, PyValue>, k: nat)
    requires k < |fields| && FinalValue(fields[k], inputs).Ok? && !FinalValue(fields[k], inputs).value.Absent?
    ensures Payload(None, fields, inputs).Err?
  {
    assert fields == fields[..k] + ([fields[k]] + fields[k + 1..]);
    PayloadAppend(None, fields[..k], [fields[k]] + fields[k + 1..], inputs);
    PayloadAppend(None, [fields[k]], fields[k + 1..], inputs);
    assert [fields[k]][1..] == [];
    assert Payload(None, [fields[k]], inputs).Err?;
  }

  /** `_activate_form` up to the send: pick the form, resolve its action,
      choose the format, build the payload, and describe the request. */
  function ActivateForm(page: Page, formIndex: int, inputs: map<string, PyValue>): (r: Result<Request>)
    ensures r.Ok? ==> SelectForm(page.forms, formIndex).Ok?
    ensures r.Ok? ==>
              var form := SelectForm(page.forms, formIndex).value;
              && ResolveAction(form.action, page.url) == Ok(r.value.url)
              && Payload(ChooseFormat(form.httpMethod, form.enctype), form.fields, inputs) == Ok(r.value.payload)
              && (r.value.verb == GET <==> form.httpMethod == "GET")
              && (r.value.verb == POST <==> form.httpMethod == "POST")
              && (r.value.channel == Files <==> form.httpMethod == "POST" && form.enctype == Some(MULTIPART))
              && (r.value.channel == Data <==> form.httpMethod == "POST" && form.enctype == Some(URLENCODED))
              && (r.value.channel == Params ==> form.httpMethod == "GET" || form.enctype.None?)
    ensures var sel := SelectForm(page.forms, formIndex);
            r.Ok? <==> && sel.Ok?
                       && ResolveAction(sel.value.action, page.url).Ok?
                       && ChooseFormat(sel.value.httpMethod, sel.value.enctype).Some?
                       && Payload(ChooseFormat(sel.value.httpMethod, sel.value.enctype), sel.value.fields, inputs).Ok?
    ensures var sel := SelectForm(page.forms, formIndex);
            sel.Err? ==> r == Err(sel.error)
    ensures var sel := SelectForm(page.forms, formIndex);
            sel.Ok? && ResolveAction(sel.value.action, page.url).Err? ==>
              r == Err(ResolveAction(sel.value.action, page.url).error)
    ensures var sel := SelectForm(page.forms, formIndex);
            sel.Ok? && ResolveAction(sel.value.action, page.url).Ok? ==>
              var payload := Payload(ChooseFormat(sel.value.httpMethod, sel.value.enctype), sel.value.fields, inputs);
              payload.Err? ==> r == Err(payload.error)
    ensures var sel := SelectForm(page.forms, formIndex);
            (&& sel.Ok? && ResolveAction(sel.value.action, page.url).Ok?
             && ChooseFormat(sel.value.httpMethod, sel.value.enctype).None?
             && Payload(None, sel.value.fields, inputs).Ok?) ==> r == Err(UnboundLocalError("fmt"))
  {
    var form :- SelectForm(page.forms, formIndex);
    var url :- ResolveAction(form.action, page.url);
    var fmt := ChooseFormat(form.httpMethod, form.enctype);
    var payload :- Payload(fmt, form.fields, inputs);
    if fmt.None? then Err(UnboundLocalError("fmt"))
    else
      var (verb, channel) := Transport(fmt.value);
      Ok(Request(verb, url, channel, payload))
  }
}

=== FILE: eso_header.dfy ===
/** Reading the header of an ESO data product (`EsoClass.get_header`).

    The header arrives as text, one `KEY = value / comment` card per line in
    the manner of a FITS header. Each value is typed as a logical, a quoted
    string, a real literal or an integer; comment cards are skipped and the
    first `END` line without `=` stops the reading. Real values are kept as
    their validated literal text.
 */
module EsoHeader {
  import opened Outcome
  import opened Text
  import opened Numerals

  /** A typed header value. */
  datatype HeaderValue =
    | Logical(b: bool)
    | Quoted(s: string)
    | RealLiteral(lit: string)
    | Integer(i: int)

  type Header = map<string, HeaderValue>

  /** What one line of header text is. */
  datatype Line =
    | Card(key: string, raw: string)  // a line with `=`: stripped key and stripped value text
    | EndMarker                       // a line without `=` that begins with `END`
    | OtherLine                       // any other line

  const HEADER_SERVICE := "http://archive.eso.org/hdr?DpId="

  /** A key whose first seven characters are `COMMENT`. */
  predicate IsCommentKey(key: string)
  {
    StartsWith(key, "COMMENT")
  }

  /** A key the parser can store: not a comment, free of `=`, and stripped. */
  predicate ValidKey(key: string)
  {
    !IsCommentKey(key) && '=' !in key && IsStripped(key)
  }

  /** Classifies a line; a card is cut at its first `=`, and its value ends
      at the first `/`, where the comment begins. */
  function ReadLine(line: string): (l: Line)
    ensures l.Card? <==> '=' in line
    ensures l.EndMarker? <==> '=' !in line && StartsWith(line, "END")
    ensures l.Card? ==> '=' !in l.key && IsStripped(l.key)
    ensures l.Card? ==> '/' !in l.raw && IsStripped(l.raw)
  {
    if '=' in line then
      var key := Before(line, '=');
      var value := line[|key| + 1..];
      Card(Strip(key), Strip(Before(value, '/')))
    else if StartsWith(line, "END") then EndMarker
    else OtherLine
  }

  /** Python's `v[1:-1]`. */
  function Unquote(v: string): (r: string)
    ensures |v| >= 2 ==> v == [v[0]] + r + [v[|v| - 1]]
    ensures |v| < 2 ==> r == ""
  {
    if |v| >= 2 then v[1..|v| - 1] else ""
  }

  /** Types the value text of a card. `T` and `F` are logicals; text opening
      with a quote loses its first and last characters; text with a `.` is a
      real literal, anything else an integer. Empty text fails as indexing
      its first character does, and a malformed number fails as Python's
      conversion does. */
  function TypeValue(v: string): (r: Result<HeaderValue>)
    ensures v == "" ==> r.Err? && r.error.IndexError?
    ensures r.Err? && v != "" ==> r.error.ValueError?
    ensures r.Ok? && r.value.Logical? <==> v == "T" || v == "F"
    ensures r.Ok? && r.value.Logical? ==> (r.value.b <==> v == "T")
    ensures r.Ok? && r.value.Quoted? <==> v != "T" && v != "F" && |v| > 0 && v[0] == '\''
    ensures r.Ok? && r.value.Quoted? ==> r.value.s == Unquote(v)
    ensures r.Ok? && r.value.RealLiteral? <==>
              v != "T" && v != "F" && |v| > 0 && v[0] != '\'' && '.' in v && IsFloatLiteral(v)
    ensures r.Ok? && r.value.RealLiteral? ==> r.value.lit == v
    ensures r.Ok? && r.value.Integer? <==>
              v != "T" && v != "F" && |v| > 0 && v[0] != '\'' && '.' !in v && IsIntLiteral(v)
    ensures r.Ok? && r.value.Integer? ==> ParseInt(v) == Some(r.value.i)
  {
    if v == "T" then Ok(Logical(true))
    else if v == "F" then Ok(Logical(false))
    else if |v| == 0 then Err(IndexError("string index out of range"))
    else if v[0] == '\'' then Ok(Quoted(Unquote(v)))
    else if '.' in v then
      if IsFloatLiteral(v) then Ok(RealLiteral(v)) else Err(ValueError("could not convert string to float"))
    else
      match ParseInt(v)
      case Some(n) => Ok(Integer(n))
      case None => Err(ValueError("invalid literal for int() with base 10"))
  }

  /** Stores one card: comment keys are dropped, any other key is typed and
      replaces what an earlier card stored under it. */
  function Absorb(h: Header, key: string, raw: string): (r: Result<Header>)
    ensures IsCommentKey(key) ==> r == Ok(h)
    ensures !IsCommentKey(key) ==> (r.Ok? <==> TypeValue(raw).Ok?)
    ensures !IsCommentKey(key) && r.Ok? ==> r.value == h[key := TypeValue(raw).value]
  {
    if IsCommentKey(key) then Ok(h)
    else
      var v :- TypeValue(raw);
      Ok(h[key := v])
  }

  /** Each line classified on its own, in order. */
  function Classify(lines: seq<string>): (r: seq<Line>)
    ensures |r| == |lines|
    ensures forall k :: 0 <= k < |lines| ==> r[k] == ReadLine(lines[k])
  {
    if lines == [] then [] else [ReadLine(lines[0])] + Classify(lines[1..])
  }

  /** A line as `ReadLine` produces it: a card's key is free of `=` and
      stripped. */
  predicate IsRead(l: Line)
  {
    l.Card? ==> '=' !in l.key && IsStripped(l.key)
  }

  /** Reads classified lines in order into `acc` until an end marker. */
  function ParseLines(lines: seq<Line>, acc: Header): (r: Result<Header>)
    ensures r.Ok? ==> acc.Keys <= r.value.Keys
    ensures r.Ok? && (forall k :: 0 <= k < |lines| ==> IsRead(lines[k])) ==>
              forall key :: key in r.value && key !in acc ==> ValidKey(key)
    decreases |lines|
  {
    if lines == [] then Ok(acc)
    else
      assert forall k :: 0 <= k < |lines[1..]| ==> lines[1..][k] == lines[k + 1];
      match lines[0]
      case EndMarker => Ok(acc)
      case OtherLine => ParseLines(lines[1..], acc)
      case Card(key, raw) =>
        var h :- Absorb(acc, key, raw);
        ParseLines(lines[1..], h)
  }

  /** The header a text describes. */
  function ParseHeader(text: string): (r: Result<Header>)
    ensures r.Ok? ==> forall k :: k in r.value ==> ValidKey(k)
  {
    ParseLines(Classify(Split(text, '\n')), map[])
  }

  predicate NoEndMarker(lines: seq<Line>)
  {
    forall k :: 0 <= k < |lines| ==> !lines[k].EndMarker?
  }

  /** Nothing after the first end marker is read. */
  lemma {:induction false} EndStopsParsing(pre: seq<Line>, post: seq<Line>, acc: Header)
    requires NoEndMarker(pre)
    ensures ParseLines(pre + [EndMarker] + post, acc) == ParseLines(pre, acc)
    decreases |pre|
  {
    var all := pre + [EndMarker] + post;
    if pre == [] {
      assert all[0] == EndMarker;
    } else {
      assert all[0] == pre[0];
      assert all[1..] == pre[1..] + [EndMarker] + post;
      match pre[0]
      case OtherLine =>
        EndStopsParsing(pre[1..], post, acc);
      case Card(key, raw) =>
        if Absorb(acc, key, raw).Ok? {
          EndStopsParsing(pre[1..], post, Absorb(acc, key, raw).value);
        }
    }
  }

  /** Reading one more line after lines without an end marker continues from
      the header read so far; a failure so far stays that failure. */
  lemma {:induction false} ParseOneMore(pre: seq<Line>, line: Line, acc: Header)
    requires NoEndMarker(pre)
    ensures ParseLines(pre, acc).Err? ==> ParseLines(pre + [line], acc) == ParseLines(pre, acc)
    ensures ParseLines(pre, acc).Ok? ==> ParseLines(pre + [line], acc) == ParseLines([line], ParseLines(pre, acc).value)
    decreases |pre|
  {
    if pre != [] {
      var all := pre + [line];
      assert all[0] == pre[0];
      assert all[1..] == pre[1..] + [line];
      match pre[0]
      case OtherLine =>
        ParseOneMore(pre[1..], line, acc);
      case Card(key, raw) =>
        if Absorb(acc, key, raw).Ok? {
          ParseOneMore(pre[1..], line, Absorb(acc, key, raw).value);
        }
    } else {
      assert pre + [line] == [line];
    }
  }

  /** A card that is not a comment and whose value cannot be typed ends the
      read with the typing error, whatever follows it. */
  lemma {:induction false} UnreadableCardFails(pre: seq<Line>, key: string, raw: string, post: seq<Line>, acc: Header)
    requires NoEndMarker(pre) && ParseLines(pre, acc).Ok?
    requires !IsCommentKey(key) && TypeValue(raw).Err?
    ensures ParseLines(pre + [Card(key, raw)] + post, acc) == Err(TypeValue(raw).error)
    decreases |pre|
  {
    var all := pre + [Card(key, raw)] + post;
    if pre == [] {
      assert all[0] == Card(key, raw);
    } else {
      assert all[0] == pre[0];
      assert all[1..] == pre[1..] + [Card(key, raw)] + post;
      match pre[0]
      case OtherLine =>
        UnreadableCardFails(pre[1..], key, raw, post, acc);
      case Card(k, r) =>
        UnreadableCardFails(pre[1..], key, raw, post, Absorb(acc, k, r).value);
    }
  }

  /** In a header text, the first line that is an untypable non-comment card,
      reached before any end marker, makes reading the header fail with the
      typing error. */
  lemma UnreadableLineFails(text: string, k: nat)
    requires var lines := Classify(Split(text, '\n'));
             && k < |lines| && NoEndMarker(lines[..k]) && ParseLines(lines[..k], map[]).Ok?
             && lines[k].Card? && !IsCommentKey(lines[k].key) && TypeValue(lines[k].raw).Err?
    ensures ParseHeader(text) == Err(TypeValue(Classify(Split(text, '\n'))[k].raw).error)
  {
    var lines := Classify(Split(text, '\n'));
    SplitAround(lines, k);
    UnreadableCardFails(lines[..k], lines[k].key, lines[k].raw, lines[k + 1..], map[]);
  }

  /** A sequence is its part before index `k`, the element at `k`, and the rest. */
  lemma SplitAround<T>(s: seq<T>, k: nat)
    requires k < |s|
    ensures s == s[..k] + [s[k]] + s[k + 1..]
  {
  }

  /** A later card for a key replaces the value of every earlier one. */
  lemma LaterCardOverwrites(pre: seq<Line>, key: string, raw: string, acc: Header)
    requires NoEndMarker(pre) && ParseLines(pre, acc).Ok?
    requires !IsCommentKey(key) && TypeValue(raw).Ok?
    ensures ParseLines(pre + [Card(key, raw)], acc) == Ok(ParseLines(pre, acc).value[key := TypeValue(raw).value])
  {
    ParseOneMore(pre, Card(key, raw), acc);
    assert [Card(key, raw)][1..] == [];
  }

  /** A comment card, or a line that is neither a card nor an end marker,
      leaves the header as it was. */
  lemma IgnoredLineKeepsHeader(pre: seq<Line>, line: Line, acc: Header)
    requires NoEndMarker(pre)
    requires line.OtherLine? || (line.Card? && IsCommentKey(line.key))
    ensures ParseLines(pre + [line], acc) == ParseLines(pre, acc)
  {
    ParseOneMore(pre, line, acc);
    assert [line][1..] == [];
  }

  /** Characters of a real literal in the usual notation. */
  predicate IsNumeralChar(c: char)
  {
    IsDigit(c) || c == '+' || c == '-' || c == '_' || c == '.' || c == 'e' || c == 'E'
  }

  /** The card text a value is written as. */
  function RenderValue(v: HeaderValue): string
  {
    match v
    case Logical(b) => if b then "T" else "F"
    case Quoted(s) => "'" + s + "'"
    case RealLiteral(lit) => lit
    case Integer(i) => RenderInt(i)
  }

  function RenderCard(key: string, v: HeaderValue): string
  {
    key + " = " + RenderValue(v)
  }

  /** A card the parser reads back as written: a storable single-line key,
      and a value whose text has no `/` or line break, real literals being
      valid `float` literals with a decimal point. */
  predicate WellFormedCard(key: string, v: HeaderValue)
  {
    && ValidKey(key) && '\n' !in key
    && match v
       case Quoted(s) => '/' !in s && '\n' !in s
       case RealLiteral(lit) =>
         && '.' in lit && IsFloatLiteral(lit)
         && forall k :: 0 <= k < |lit| ==> IsNumeralChar(lit[k])
       case _ => true
  }

  lemma RenderValueShape(key: string, v: HeaderValue)
    requires WellFormedCard(key, v)
    ensures var t := RenderValue(v);
            |t| > 0 && IsStripped(t) && '/' !in t && '\n' !in t
  {
    match v
    case Integer(i) => IntegerShape(i);
    case RealLiteral(lit) => RealShape(lit);
    case Quoted(s) => QuotedShape(s);
    case Logical(b) =>
  }

  lemma IntegerShape(i: int)
    ensures var t := RenderInt(i);
            |t| > 0 && IsStripped(t) && '/' !in t && '\n' !in t
  {
    var t := RenderInt(i);
    forall k | 0 <= k < |t| ensures IsPlainChar(t[k]) {
      assert IsDigit(t[k]) || t[k] == '-';
    }
    PlainText(t);
  }

  lemma RealShape(lit: string)
    requires '.' in lit && forall k :: 0 <= k < |lit| ==> IsNumeralChar(lit[k])
    ensures |lit| > 0 && IsStripped(lit) && '/' !in lit && '\n' !in lit
  {
    forall k | 0 <= k < |lit| ensures IsPlainChar(lit[k]) {
      assert IsNumeralChar(lit[k]);
    }
    PlainText(lit);
  }

  lemma QuotedShape(s: string)
    requires '/' !in s && '\n' !in s
    ensures var t := "'" + s + "'";
            |t| > 0 && IsStripped(t) && '/' !in t && '\n' !in t
  {
    var t := "'" + s + "'";
    assert forall c :: c in t ==> c == '\'' || c in s;
  }

  /** A character that is neither whitespace, nor `/`, nor a line break. */
  predicate IsPlainChar(c: char)
  {
    !IsSpace(c) && c != '/' && c != '\n'
  }

  lemma PlainText(t: string)
    requires |t| > 0 && forall k :: 0 <= k < |t| ==> IsPlainChar(t[k])
    ensures IsStripped(t) && '/' !in t && '\n' !in t
  {
    assert IsPlainChar(t[0]) && IsPlainChar(t[|t| - 1]);
  }

  lemma CutAtEquals(key: string, t: string)
    requires '=' !in key
    ensures var line := key + " = " + t;
            '=' in line && Before(line, '=') == key + " " && line[|key| + 2..] == " " + t
  {
    var line := key + " = " + t;
    assert line[..|key| + 1] == key + " ";
    assert line[|key| + 1] == '=';
    IndexOfUnique(line, '=', |key| + 1);
  }

  lemma StripKey(key: string)
    requires IsStripped(key)
    ensures Strip(key + " ") == key
  {
    if key == [] {
      assert Strip(" ") == "";
    } else {
      StripPadded([], key, " ");
      assert [] + key + " " == key + " ";
    }
  }

  lemma StripValue(t: string)
    requires |t| > 0 && IsStripped(t) && '/' !in t
    ensures Strip(Before(" " + t, '/')) == t
  {
    assert '/' !in " " + t;
    StripPadded(" ", t, []);
    assert " " + t + [] == " " + t;
  }

  /** A line `key = text` is read as the card of `key` and `text` when
      neither has whitespace at its ends and the text has no comment. */
  lemma ReadWrittenLine(key: string, t: string)
    requires '=' !in key && IsStripped(key)
    requires |t| > 0 && IsStripped(t) && '/' !in t
    ensures ReadLine(key + " = " + t) == Card(key, t)
  {
    CutAtEquals(key, t);
    StripKey(key);
    StripValue(t);
  }

  /** The part of a text before the first occurrence of `sep`, when the
      text's first `sep` follows `pre`. */
  lemma BeforeFirst(pre: string, sep: char, post: string)
    requires sep !in pre
    ensures Before(pre + [sep] + post, sep) == pre
  {
    var s := pre + [sep] + post;
    assert s[..|pre|] == pre && s[|pre|] == sep;
    IndexOfUnique(s, sep, |pre|);
  }

  /** A line `pre=val/comment` is a card whose key is `pre` and whose value
      is `val`, both stripped: the comment after the first `/` is dropped. */
  lemma ReadCommentedCard(pre: string, val: string, comment: string)
    requires '=' !in pre && '/' !in val
    ensures ReadLine(pre + "=" + val + "/" + comment) == Card(Strip(pre), Strip(val))
  {
    var line := pre + "=" + val + "/" + comment;
    assert line == pre + ['='] + (val + "/" + comment);
    BeforeFirst(pre, '=', val + "/" + comment);
    assert line[|pre| + 1..] == val + ['/'] + comment;
    BeforeFirst(val, '/', comment);
  }

  /** A line `pre=val` without a `/` after its first `=` is a card of the
      stripped `pre` and `val`. */
  lemma ReadUncommentedCard(pre: string, val: string)
    requires '=' !in pre && '/' !in val
    ensures ReadLine(pre + "=" + val) == Card(Strip(pre), Strip(val))
  {
    var line := pre + "=" + val;
    assert line == pre + ['='] + val;
    BeforeFirst(pre, '=', val);
    assert line[|pre| + 1..] == val;
  }

  /** A written card is read back as its key and value. */
  lemma CardRoundTrip(key: string, v: HeaderValue)
    requires WellFormedCard(key, v)
    ensures ReadLine(RenderCard(key, v)) == Card(key, RenderValue(v))
    ensures TypeValue(RenderValue(v)) == Ok(v)
  {
    RenderValueShape(key, v);
    ReadWrittenLine(key, RenderValue(v));
    TypeOfRendered(v);
  }

  lemma TypeOfRendered(v: HeaderValue)
    requires match v
             case Quoted(s) => true
             case RealLiteral(lit) =>
               && '.' in lit && IsFloatLiteral(lit)
               && forall k :: 0 <= k < |lit| ==> IsNumeralChar(lit[k])
             case _ => true
    ensures TypeValue(RenderValue(v)) == Ok(v)
  {
    match v
    case Logical(b) =>
    case Quoted(s) =>
      var t := RenderValue(v);
      assert t[0] == '\'';
      assert |t| >= 2 && t[1..|t| - 1] == s;
    case RealLiteral(lit) =>
      assert IsNumeralChar(lit[0]);
      assert lit != "T" && lit != "F" by {
        var k := IndexOf(lit, '.');
        assert lit[k] == '.';
      }
    case Integer(i) =>
      var t := RenderInt(i);
      IntRoundTrip(i);
      assert '.' !in t by {
        assert forall k :: 0 <= k < |t| ==> IsDigit(t[k]) || t[k] == '-';
      }
      assert t != "T" && t != "F" by {
        assert IsDigit(t[0]) || t[0] == '-';
      }
  }

  /** The cards a sequence of key/value entries is written as, one per line. */
  function RenderCards(entries: seq<(string, HeaderValue)>): (r: seq<string>)
    ensures |r| == |entries|
    ensures forall k :: 0 <= k < |r| ==> r[k] == RenderCard(entries[k].0, entries[k].1)
  {
    if entries == [] then [] else [RenderCard(entries[0].0, entries[0].1)] + RenderCards(entries[1..])
  }

  /** Storing entries in order, a later entry for a key replacing an earlier one. */
  function Store(entries: seq<(string, HeaderValue)>, acc: Header): Header
    decreases |entries|
  {
    if entries == [] then acc else Store(entries[1..], acc[entries[0].0 := entries[0].1])
  }

  /** The classified lines of written entries: one card per entry. */
  function CardLines(entries: seq<(string, HeaderValue)>): (r: seq<Line>)
    ensures |r| == |entries|
    ensures forall k :: 0 <= k < |r| ==> r[k] == Card(entries[k].0, RenderValue(entries[k].1))
  {
    if entries == [] then [] else [Card(entries[0].0, RenderValue(entries[0].1))] + CardLines(entries[1..])
  }

  /** Written cards are read back into the header that storing the entries
      in order gives. */
  lemma {:induction false} CardsRoundTrip(entries: seq<(string, HeaderValue)>, acc: Header)
    requires forall k :: 0 <= k < |entries| ==> WellFormedCard(entries[k].0, entries[k].1)
    ensures ParseLines(CardLines(entries), acc) == Ok(Store(entries, acc))
    decreases |entries|
  {
    if entries != [] {
      var (key, v) := entries[0];
      var lines := CardLines(entries);
      assert TypeValue(RenderValue(v)) == Ok(v) by {
        CardRoundTrip(key, v);
      }
      assert lines[1..] == CardLines(entries[1..]);
      CardsRoundTrip(entries[1..], acc[key := v]);
    }
  }

  /** A header text written card by card is read back as the stored entries. */
  lemma {:induction false} HeaderRoundTrip(entries: seq<(string, HeaderValue)>)
    requires forall k :: 0 <= k < |entries| ==> WellFormedCard(entries[k].0, entries[k].1)
    ensures ParseHeader(Join(RenderCards(entries), '\n')) == Ok(Store(entries, map[]))
  {
    if entries == [] {
      EmptyHeader();
    } else {
      WrittenLinesSplitBack(entries);
      WrittenLinesClassified(entries);
      CardsRoundTrip(entries, map[]);
    }
  }

  /** An empty text is one line holding no card: the empty header. */
  lemma EmptyHeader()
    ensures ParseHeader([]) == Ok(map[])
  {
    var lines := Split([], '\n');
    BeforeIsFirstPiece([], '\n');
    assert lines == [[]];
    assert Classify(lines) == [OtherLine];
    assert ParseLines([OtherLine], map[]) == ParseLines([], map[]);
  }

  /** Written cards joined with line breaks split back into the same cards. */
  lemma {:induction false} WrittenLinesSplitBack(entries: seq<(string, HeaderValue)>)
    requires |entries| > 0
    requires forall k :: 0 <= k < |entries| ==> WellFormedCard(entries[k].0, entries[k].1)
    ensures Split(Join(RenderCards(entries), '\n'), '\n') == RenderCards(entries)
  {
    var lines := RenderCards(entries);
    forall k | 0 <= k < |lines| ensures '\n' !in lines[k] {
      CardIsOneLine(entries[k].0, entries[k].1);
    }
    SplitJoin(lines, '\n');
  }

  /** A written card holds no line break. */
  lemma CardIsOneLine(key: string, v: HeaderValue)
    requires WellFormedCard(key, v)
    ensures '\n' !in RenderCard(key, v)
  {
    var t := RenderValue(v);
    RenderValueShape(key, v);
    assert '\n' !in " = ";
    NotInConcat(key, " = ", '\n');
    NotInConcat(key + " = ", t, '\n');
  }

  /** Each written card is classified as the card of its entry. */
  lemma {:induction false} WrittenLinesClassified(entries: seq<(string, HeaderValue)>)
    requires forall k :: 0 <= k < |entries| ==> WellFormedCard(entries[k].0, entries[k].1)
    ensures Classify(RenderCards(entries)) == CardLines(entries)
  {
    var read, cards := Classify(RenderCards(entries)), CardLines(entries);
    forall k | 0 <= k < |entries| ensures read[k] == cards[k] {
      CardRoundTrip(entries[k].0, entries[k].1);
    }
  }

  /** The product identifiers `get_header` is given: one, or a list. */
  datatype ProductIds = OneId(id: string) | IdList(ids: seq<string>)

  function IdsOf(p: ProductIds): seq<string>
  {
    match p
    case OneId(id) => [id]
    case IdList(ids) => ids
  }

  function HeaderUrl(id: string): string
  {
    HEADER_SERVICE + id
  }

  /** Applies `f` to each element in order, stopping at the first failure:
      all the values when every application succeeds, otherwise the first
      failure. */
  method MapResults<A, B>(xs: seq<A>, f: A -> Result<B>) returns (r: Result<seq<B>>)
    ensures r.Ok? <==> forall i :: 0 <= i < |xs| ==> f(xs[i]).Ok?
    ensures r.Ok? ==> |r.value| == |xs| && forall i :: 0 <= i < |xs| ==> f(xs[i]) == Ok(r.value[i])
    ensures r.Err? ==> exists i :: && 0 <= i < |xs|
                                   && f(xs[i]) == Err(r.error)
                                   && forall j :: 0 <= j < i ==> f(xs[j]).Ok?
  {
    var values: seq<B> := [];
    var i := 0;
    while i < |xs|
      invariant 0 <= i <= |xs|
      invariant |values| == i
      invariant forall j :: 0 <= j < i ==> f(xs[j]) == Ok(values[j])
    {
      var y := f(xs[i]);
      if y.Err? {
        return Err(y.error);
      }
      values := values + [y.value];
      i := i + 1;
    }
    return Ok(values);
  }

  /** `get_header`: one header per identifier, in order, each read from the
      text `fetch` returns for the identifier's header URL; the first
      unreadable header ends the call with its failure. */
  method GetHeader(productIds: ProductIds, fetch: string -> string) returns (r: Result<seq<Header>>)
    ensures var ids := IdsOf(productIds);
            r.Ok? <==> forall i :: 0 <= i < |ids| ==> ParseHeader(fetch(HeaderUrl(ids[i]))).Ok?
    ensures var ids := IdsOf(productIds);
            r.Ok? ==> |r.value| == |ids| &&
                      forall i :: 0 <= i < |ids| ==> ParseHeader(fetch(HeaderUrl(ids[i]))) == Ok(r.value[i])
    ensures var ids := IdsOf(productIds);
            r.Err? ==> exists i :: && 0 <= i < |ids|
                                   && ParseHeader(fetch(HeaderUrl(ids[i]))) == Err(r.error)
                                   && forall j :: 0 <= j < i ==> ParseHeader(fetch(HeaderUrl(ids[j]))).Ok?
  {
    r := MapResults(IdsOf(productIds), id => ParseHeader(fetch(HeaderUrl(id))));
  }
}

=== FILE: eso_query.dfy ===
/** The archive queries of `EsoClass`: the query dictionaries of
    `query_survey` and `query_instrument`, the clean-up of the CSV the archive
    answers with, and the instrument and survey lists.

    Fetching a page and submitting a form are parameters: `get` gives the page
    at a URL, `submit` the body the archive answers a request with. Reading
    the CSV into a table is not part of this model; the operations end with
    the bytes handed to the table reader.
 */
module EsoQuery {
  import opened Outcome
  import opened Text
  import opened PyValues
  import opened EsoForm

  newtype byte = b: int | 0 <= b < 256

  const WDBO := "wdbo"
  const CSV_DOWNLOAD := "csv/download"
  const MAX_ROWS := "max_rows_returned"
  const PHASE3_PROGRAM := "phase3_program"
  /** The row cap sent when the configured limit is negative. */
  const DEFAULT_ROW_CAP := 10000
  const SURVEY_FORM_URL := "http://archive.eso.org/wdb/wdb/adp/phase3_main/form"
  const INSTRUMENT_LINK := "http://archive.eso.org/wdb/wdb/eso"

  const NEWLINE: byte := 10
  const HASH: byte := 35
  /** The marker of an empty answer, `# No data returned !`, in ASCII. */
  const NO_DATA: seq<byte> := [35, 32, 78, 111, 32, 100, 97, 116, 97, 32, 114, 101, 116, 117, 114, 110, 101, 100, 32, 33]

  /** The row cap a query asks for: the configured limit when it is not
      negative, else the default cap. */
  function RowCap(rowLimit: int): (n: nat)
    ensures rowLimit >= 0 ==> n == rowLimit
    ensures rowLimit < 0 ==> n == DEFAULT_ROW_CAP
  {
    if rowLimit >= 0 then rowLimit else DEFAULT_ROW_CAP
  }

  /** The caller's keyword arguments with the CSV download format and the
      row cap added; nothing else changes. */
  function QueryDict(kwargs: map<string, PyValue>, rowLimit: int): (q: map<string, PyValue>)
    ensures q.Keys == kwargs.Keys + {WDBO, MAX_ROWS}
    ensures q[WDBO] == PyStr(CSV_DOWNLOAD)
    ensures q[MAX_ROWS].PyInt? && q[MAX_ROWS].i >= 0
    ensures rowLimit >= 0 ==> q[MAX_ROWS] == PyInt(rowLimit)
    ensures rowLimit < 0 ==> q[MAX_ROWS] == PyInt(DEFAULT_ROW_CAP)
    ensures forall k :: k in kwargs && k != WDBO && k != MAX_ROWS ==> q[k] == kwargs[k]
  {
    kwargs[WDBO := PyStr(CSV_DOWNLOAD)][MAX_ROWS := PyInt(RowCap(rowLimit))]
  }

  /** The query dictionary of `query_survey`, which rejects a survey that is
      not listed and names the survey in the `phase3_program` field. */
  function SurveyQueryDict(survey: string, surveys: seq<string>, kwargs: map<string, PyValue>, rowLimit: int)
    : (r: Result<map<string, PyValue>>)
    ensures r.Err? <==> survey !in surveys
    ensures r.Err? ==> r.error == ValueError("Survey " + survey + " is not in the survey list.")
    ensures r.Ok? ==> r.value.Keys == kwargs.Keys + {WDBO, MAX_ROWS, PHASE3_PROGRAM}
    ensures r.Ok? ==> r.value[PHASE3_PROGRAM] == PyStr(survey)
    ensures r.Ok? ==> r.value[WDBO] == PyStr(CSV_DOWNLOAD) && r.value[MAX_ROWS] == PyInt(RowCap(rowLimit))
    ensures r.Ok? ==> forall k :: k in kwargs && k !in {WDBO, MAX_ROWS, PHASE3_PROGRAM} ==> r.value[k] == kwargs[k]
  {
    if survey !in surveys then Err(ValueError("Survey " + survey + " is not in the survey list."))
    else Ok(QueryDict(kwargs, rowLimit)[PHASE3_PROGRAM := PyStr(survey)])
  }

  /** Every pair sent under `key` carries `text`, bare or as a multipart
      part, unless it is the placeholder of a file upload. */
  predicate SendsAs(pairs: seq<Pair>, key: string, text: string)
  {
    forall k :: 0 <= k < |pairs| && pairs[k].0 == key ==>
      pairs[k].1 == Plain(text) || pairs[k].1 == Part("", text) || pairs[k].1 == FILE_PLACEHOLDER
  }

  lemma CallerValuesAreSent(fmt: Option<Format>, pairs: seq<Pair>, inputs: map<string, PyValue>, key: string)
    requires CallerValuesSent(fmt, pairs, inputs) && key in inputs
    ensures SendsAs(pairs, key, Render(inputs[key]))
  {
    forall k | 0 <= k < |pairs| && pairs[k].0 == key
      ensures pairs[k].1 == Plain(Render(inputs[key])) || pairs[k].1 == Part("", Render(inputs[key]))
              || pairs[k].1 == FILE_PLACEHOLDER
    {
    }
  }

  /** `query_survey` up to the submission: the request built from the survey
      form. Whatever it sends under `phase3_program`, `wdbo` and
      `max_rows_returned` is the survey name, the CSV format and the row cap,
      unless it is the placeholder of a multipart file input;
      a key with no field on the form is not sent at all. */
  function QuerySurvey(survey: string, surveys: seq<string>, kwargs: map<string, PyValue>, rowLimit: int,
                       get: string -> Page): (r: Result<Request>)
    ensures survey !in surveys ==> r == Err(ValueError("Survey " + survey + " is not in the survey list."))
    ensures survey in surveys ==>
              r == ActivateForm(get(SURVEY_FORM_URL), 0, SurveyQueryDict(survey, surveys, kwargs, rowLimit).value)
    ensures r.Ok? ==> SendsAs(r.value.payload, PHASE3_PROGRAM, survey)
    ensures r.Ok? ==> SendsAs(r.value.payload, WDBO, CSV_DOWNLOAD)
    ensures r.Ok? ==> SendsAs(r.value.payload, MAX_ROWS, Render(PyInt(RowCap(rowLimit))))
  {
    var q :- SurveyQueryDict(survey, surveys, kwargs, rowLimit);
    var req :- ActivateForm(get(SURVEY_FORM_URL), 0, q);
    var form := SelectForm(get(SURVEY_FORM_URL).forms, 0).value;
    var fmt := ChooseFormat(form.httpMethod, form.enctype);
    CallerValuesAreSent(fmt, req.payload, q, PHASE3_PROGRAM);
    CallerValuesAreSent(fmt, req.payload, q, WDBO);
    CallerValuesAreSent(fmt, req.payload, q, MAX_ROWS);
    Ok(req)
  }

  /** When the survey form has a `phase3_program` field, a successful survey
      query sends the survey name under it, as the field's kind and the
      form's format dictate. */
  lemma SurveyIsSent(survey: string, surveys: seq<string>, kwargs: map<string, PyValue>, rowLimit: int,
                     get: string -> Page, k: nat) returns (j: nat)
    requires QuerySurvey(survey, surveys, kwargs, rowLimit, get).Ok?
    requires SelectForm(get(SURVEY_FORM_URL).forms, 0).Ok?
    requires var fields := SelectForm(get(SURVEY_FORM_URL).forms, 0).value.fields;
             k < |fields| && fields[k].name == PHASE3_PROGRAM
    ensures var form := SelectForm(get(SURVEY_FORM_URL).forms, 0).value;
            var fmt := ChooseFormat(form.httpMethod, form.enctype);
            var payload := QuerySurvey(survey, surveys, kwargs, rowLimit, get).value.payload;
            && fmt.Some?
            && j < |payload|
            && payload[j] == (PHASE3_PROGRAM, SentEntry(fmt.value, IsFile(form.fields[k].control), survey))
  {
    var page := get(SURVEY_FORM_URL);
    var form := SelectForm(page.forms, 0).value;
    var fmt := ChooseFormat(form.httpMethod, form.enctype);
    var q := SurveyQueryDict(survey, surveys, kwargs, rowLimit).value;
    var req := ActivateForm(page, 0, q);
    assert QuerySurvey(survey, surveys, kwargs, rowLimit, get) == req;
    assert Payload(fmt, form.fields, q) == Ok(req.value.payload);
    j := CallerValueIsSent(fmt, form.fields, q, k);
    assert Render(q[PHASE3_PROGRAM]) == survey;
  }

  function InstrumentFormUrl(instrument: string): string
  {
    INSTRUMENT_LINK + "/" + instrument + "/form"
  }

  /** A line of the answer that the table reader keeps: not empty, and not a
      `#` comment. */
  predicate IsDataLine(line: seq<byte>)
  {
    |line| > 0 && line[0] != HASH
  }

  /** The data lines among `lines`, in their order. */
  function DataLines(lines: seq<seq<byte>>): (r: seq<seq<byte>>)
    ensures |r| <= |lines|
    ensures forall k :: 0 <= k < |r| ==> IsDataLine(r[k])
    ensures forall l :: l in r <==> l in lines && IsDataLine(l)
    decreases |lines|
  {
    if lines == [] then []
    else (if IsDataLine(lines[0]) then [lines[0]] else []) + DataLines(lines[1..])
  }

  /** Filtering consecutive lines filters each part in turn: the kept lines
      keep their order. */
  lemma {:induction false} DataLinesAppend(a: seq<seq<byte>>, b: seq<seq<byte>>)
    ensures DataLines(a + b) == DataLines(a) + DataLines(b)
    decreases |a|
  {
    if a == [] {
      assert a + b == b;
    } else {
      assert (a + b)[0] == a[0];
      assert (a + b)[1..] == a[1..] + b;
      DataLinesAppend(a[1..], b);
    }
  }

  /** Filtering one more line keeps it exactly when it is a data line. */
  lemma DataLinesStep(lines: seq<seq<byte>>, i: nat)
    requires i < |lines|
    ensures DataLines(lines[..i + 1]) == DataLines(lines[..i]) + (if IsDataLine(lines[i]) then [lines[i]] else [])
  {
    assert lines[..i + 1] == lines[..i] + [lines[i]];
    DataLinesAppend(lines[..i], [lines[i]]);
  }

  /** Keeps the data lines of `lines`, in order. */
  method FilterLines(lines: seq<seq<byte>>) returns (kept: seq<seq<byte>>)
    ensures kept == DataLines(lines)
  {
    kept := [];
    var i := 0;
    while i < |lines|
      invariant 0 <= i <= |lines|
      invariant kept == DataLines(lines[..i])
    {
      DataLinesStep(lines, i);
      if |lines[i]| > 0 && lines[i][0] != HASH {
        kept := kept + [lines[i]];
      }
      i := i + 1;
    }
    assert lines[..i] == lines;
  }

  /** Data lines joined with line breaks split back into the same lines, and
      the joined text is empty exactly when there are none. */
  lemma DataLinesRejoin(lines: seq<seq<byte>>)
    requires forall k :: 0 <= k < |lines| ==> NEWLINE !in lines[k]
    ensures Join(DataLines(lines), NEWLINE) == [] <==> DataLines(lines) == []
    ensures DataLines(lines) != [] ==> Split(Join(DataLines(lines), NEWLINE), NEWLINE) == DataLines(lines)
  {
    var kept := DataLines(lines);
    if kept != [] {
      forall k | 0 <= k < |kept| ensures NEWLINE !in kept[k] {
        assert kept[k] in lines;
      }
      SplitJoin(kept, NEWLINE);
      JoinNonEmpty(kept, NEWLINE);
    }
  }

  lemma JoinNonEmpty<T>(parts: seq<seq<T>>, sep: T)
    requires |parts| > 0 && |parts[0]| > 0
    ensures |Join(parts, sep)| > 0
  {
  }

  /** The CSV part of `query_instrument`: no table when the answer says no
      data was returned; otherwise the answer's lines after the first, with
      empty lines and `#` comments dropped, joined back with line breaks. */
  method CsvBody(content: seq<byte>) returns (table: Option<seq<byte>>)
    ensures table.None? <==> Contains(content, NO_DATA)
    ensures table.Some? ==> table.value == Join(DataLines(Split(content, NEWLINE)[1..]), NEWLINE)
    ensures table.Some? ==> (table.value == [] <==> DataLines(Split(content, NEWLINE)[1..]) == [])
    ensures table.Some? && table.value != [] ==>
              Split(table.value, NEWLINE) == DataLines(Split(content, NEWLINE)[1..])
  {
    if Contains(content, NO_DATA) {
      return None;
    }
    var lines := Split(content, NEWLINE)[1..];
    var kept := FilterLines(lines);
    SplitPiecesFree(content, NEWLINE);
    assert forall k :: 0 <= k < |lines| ==> lines[k] == Split(content, NEWLINE)[k + 1];
    DataLinesRejoin(lines);
    return Some(Join(kept, NEWLINE));
  }

  /** `query_instrument`: nothing is fetched when the form is to be opened in
      a browser; otherwise the instrument form is submitted with the query
      dictionary and the answer is cleaned up for the table reader. */
  method QueryInstrument(instrument: string, openForm: bool, kwargs: map<string, PyValue>, rowLimit: int,
                         get: string -> Page, submit: Request -> seq<byte>)
    returns (r: Result<Option<seq<byte>>>)
    ensures openForm ==> r == Ok(None)
    ensures !openForm ==>
              var request := ActivateForm(get(InstrumentFormUrl(instrument)), 0, QueryDict(kwargs, rowLimit));
              && (r.Ok? <==> request.Ok?)
              && (r.Ok? ==> (r.value.None? <==> Contains(submit(request.value), NO_DATA)))
              && (r.Ok? ==> SendsAs(request.value.payload, MAX_ROWS, Render(PyInt(RowCap(rowLimit)))))
              && (r.Ok? && r.value.Some? ==>
                    r.value.value == Join(DataLines(Split(submit(request.value), NEWLINE)[1..]), NEWLINE))
    ensures r.Ok? && r.value.Some? && r.value.value != [] ==>
              forall k :: 0 <= k < |Split(r.value.value, NEWLINE)| ==> IsDataLine(Split(r.value.value, NEWLINE)[k])
  {
    if openForm {
      return Ok(None);
    }
    var page := get(InstrumentFormUrl(instrument));
    var q := QueryDict(kwargs, rowLimit);
    var request := ActivateForm(page, 0, q);
    if request.Err? {
      return Err(request.error);
    }
    var form := SelectForm(page.forms, 0).value;
    CallerValuesAreSent(ChooseFormat(form.httpMethod, form.enctype), request.value.payload, q, MAX_ROWS);
    var table := CsvBody(submit(request.value));
    return Ok(table);
  }

  /** The instrument a link of the instrument page names: the path segment
      before the last `/` of a link into the instrument query forms. */
  function InstrumentOf(href: string): (r: Option<string>)
    ensures r.Some? <==> Contains(href, INSTRUMENT_LINK)
    ensures r.Some? ==> IsPieceBeforeLast(href, '/', r.value)
    ensures r.Some? ==> '/' !in r.value
  {
    if Contains(href, INSTRUMENT_LINK) then
      assert INSTRUMENT_LINK[5] == '/';
      ContainsElement(href, INSTRUMENT_LINK, '/');
      PieceBeforeLast(href, '/');
      SplitPiecesFree(href, '/');
      var parts := Split(href, '/');
      Some(parts[|parts| - 2])
    else None
  }

  /** The survey an option of the survey selector names: its stripped text,
      unless that mentions `Any`. */
  function SurveyOf(text: string): (r: Option<string>)
    ensures r.Some? <==> !Contains(Strip(text), "Any")
    ensures r.Some? ==> r.value == Strip(text) && IsStripped(r.value)
  {
    var survey := Strip(text);
    if Contains(survey, "Any") then None else Some(survey)
  }

  /** The names `name` finds in `xs`, in order. */
  function Names(xs: seq<string>, name: string -> Option<string>): (r: seq<string>)
    ensures forall i :: 0 <= i < |xs| && name(xs[i]).Some? ==> name(xs[i]).value in r
    ensures forall x :: x in r ==> exists i :: 0 <= i < |xs| && name(xs[i]) == Some(x)
    decreases |xs|
  {
    if xs == [] then []
    else
      var rest := Names(xs[1..], name);
      var here := match name(xs[0]) case Some(n) => [n] case None => [];
      var r := here + rest;
      assert forall i :: 1 <= i < |xs| ==> xs[i] == xs[1..][i - 1];
      assert forall x :: x in r ==> exists i :: 0 <= i < |xs| && name(xs[i]) == Some(x) by {
        forall x | x in r ensures exists i :: 0 <= i < |xs| && name(xs[i]) == Some(x) {
          if x in rest {
            var i :| 0 <= i < |xs[1..]| && name(xs[1..][i]) == Some(x);
            assert name(xs[i + 1]) == Some(x);
          } else {
            assert name(xs[0]) == Some(x);
          }
        }
      }
      r
  }

  /** Finding names in consecutive lists finds those of the first list, in
      order, then those of the second: names keep the order of the elements
      they come from. */
  lemma {:induction false} NamesAppend(a: seq<string>, b: seq<string>, name: string -> Option<string>)
    ensures Names(a + b, name) == Names(a, name) + Names(b, name)
    decreases |a|
  {
    if a == [] {
      assert a + b == b;
    } else {
      assert (a + b)[0] == a[0];
      assert (a + b)[1..] == a[1..] + b;
      NamesAppend(a[1..], b, name);
    }
  }

  predicate Distinct(xs: seq<string>)
  {
    forall i, j :: 0 <= i < j < |xs| ==> xs[i] != xs[j]
  }

  /** The elements of `xs` without repeats, each where it first occurs. */
  function Unique(xs: seq<string>): (r: seq<string>)
    ensures Distinct(r)
    ensures forall x :: x in r <==> x in xs
    decreases |xs|
  {
    if xs == [] then []
    else
      var u := Unique(xs[..|xs| - 1]);
      var x := xs[|xs| - 1];
      assert xs == xs[..|xs| - 1] + [x];
      if x in u then u else u + [x]
  }

  lemma IndexInPrefix(xs: seq<string>, n: nat, y: string)
    requires n <= |xs| && y in xs[..n]
    ensures IndexOf(xs, y) == IndexOf(xs[..n], y)
  {
    var k := IndexOf(xs[..n], y);
    assert xs[..n][..k] == xs[..k];
    IndexOfUnique(xs, y, k);
  }

  /** The names come out in the order of their first occurrence. */
  lemma {:induction false} UniqueKeepsFirstOccurrenceOrder(xs: seq<string>)
    ensures forall i, j :: 0 <= i < j < |Unique(xs)| ==> IndexOf(xs, Unique(xs)[i]) < IndexOf(xs, Unique(xs)[j])
    decreases |xs|
  {
    if xs != [] {
      var n := |xs| - 1;
      var pre, x := xs[..n], xs[n];
      var u := Unique(pre);
      UniqueKeepsFirstOccurrenceOrder(pre);
      UniqueStep(xs);
      OrderInPrefix(xs, n, u);
      if x !in u {
        assert x !in xs[..n];
        IndexOfUnique(xs, x, n);
        AppendLater(xs, u, n);
      }
    }
  }

  /** Elements of the first `n` of `xs` keep their first positions, and
      their order, in the whole of `xs`. */
  lemma OrderInPrefix(xs: seq<string>, n: nat, u: seq<string>)
    requires n <= |xs| && forall y :: y in u <==> y in xs[..n]
    requires forall i, j :: 0 <= i < j < |u| ==> IndexOf(xs[..n], u[i]) < IndexOf(xs[..n], u[j])
    ensures forall i :: 0 <= i < |u| ==> u[i] in xs && IndexOf(xs, u[i]) < n
    ensures forall i, j :: 0 <= i < j < |u| ==> IndexOf(xs, u[i]) < IndexOf(xs, u[j])
  {
    forall i | 0 <= i < |u| ensures u[i] in xs && IndexOf(xs, u[i]) == IndexOf(xs[..n], u[i]) {
      assert u[i] in xs[..n];
      IndexInPrefix(xs, n, u[i]);
    }
  }

  /** Appending an element that first occurs after all of `u` keeps `u`'s
      first-occurrence order. */
  lemma AppendLater(xs: seq<string>, u: seq<string>, n: nat)
    requires n < |xs| && IndexOf(xs, xs[n]) == n
    requires forall i :: 0 <= i < |u| ==> u[i] in xs && IndexOf(xs, u[i]) < n
    requires forall i, j :: 0 <= i < j < |u| ==> IndexOf(xs, u[i]) < IndexOf(xs, u[j])
    ensures forall i, j :: 0 <= i < j < |u| + 1 ==> IndexOf(xs, (u + [xs[n]])[i]) < IndexOf(xs, (u + [xs[n]])[j])
  {
    var all := u + [xs[n]];
    forall i, j | 0 <= i < j < |all| ensures IndexOf(xs, all[i]) < IndexOf(xs, all[j]) {
      assert all[i] == u[i];
      if j < |u| {
        assert all[j] == u[j];
      }
    }
  }

  /** `Unique` grows by the last element exactly when it is new. */
  lemma UniqueStep(xs: seq<string>)
    requires xs != []
    ensures var u := Unique(xs[..|xs| - 1]);
            Unique(xs) == if xs[|xs| - 1] in u then u else u + [xs[|xs| - 1]]
  {
  }

  /** Collects the elements of `xs` without repeats, in first-occurrence
      order, as the list builders do. */
  method Dedup(xs: seq<string>) returns (r: seq<string>)
    ensures r == Unique(xs)
  {
    r := [];
    var i := 0;
    while i < |xs|
      invariant 0 <= i <= |xs|
      invariant r == Unique(xs[..i])
    {
      assert xs[..i + 1][..i] == xs[..i];
      if xs[i] !in r {
        r := r + [xs[i]];
      }
      i := i + 1;
    }
    assert xs[..i] == xs;
  }

  /** `list_instruments`: the instruments the links of the instrument page
      name, each once, in first-occurrence order. */
  method ListInstruments(hrefs: seq<string>) returns (instruments: seq<string>)
    ensures instruments == Unique(Names(hrefs, InstrumentOf))
    ensures Distinct(instruments)
    ensures forall x :: x in instruments <==> exists i :: 0 <= i < |hrefs| && InstrumentOf(hrefs[i]) == Some(x)
    ensures forall x :: x in instruments ==> '/' !in x
  {
    instruments := Dedup(Names(hrefs, InstrumentOf));
  }

  /** `list_surveys`: the surveys the options of the survey selector name,
      each once, in first-occurrence order, without the `Any` choices. */
  method ListSurveys(optionTexts: seq<string>) returns (surveys: seq<string>)
    ensures surveys == Unique(Names(optionTexts, SurveyOf))
    ensures Distinct(surveys)
    ensures forall x :: x in surveys <==> exists i :: 0 <= i < |optionTexts| && SurveyOf(optionTexts[i]) == Some(x)
    ensures forall x :: x in surveys ==> !Contains(x, "Any") && IsStripped(x)
  {
    surveys := Dedup(Names(optionTexts, SurveyOf));
  }
}

=== FILE: mpc_query.dfy ===
/** The Minor Planet Center client: the request dictionary of
    `Mpc.query_object_async`, the POST it makes, and `Mpc.query_object`, which
    hands the dictionary back untouched when only the payload is asked for.

    The observation service URL and the timeout are configuration; the HTTP
    call is a parameter (`send`), and every call made is returned as a trace
    so that "no request is made" and "exactly one request is made" are
    statements about the result. Parsing the answer is a parameter too.
 */
module MpcQuery {
  import opened Outcome
  import opened PyValues

  const OBJECT_NAME := "object_name"
  const USERNAME_KEY := "username"
  const PASSWORD_KEY := "password"
  const CONTENT_TYPE_KEY := "Content-Type"
  const USERNAME := "mpc_ws"
  const PASSWORD := "mpc!!ws"
  const CONTENT_TYPE := "application/xml"
  /** The configured service URL and timeout; the timeout item defaults to
      60 seconds. */
  datatype Config = Config(obsUrl: string, timeout: int)

  /** A request made to the service: a POST of `payload` to `url`. */
  datatype Call = Post(url: string, payload: map<string, string>, timeout: int)

  /** What `query_object_async` returns: the payload itself, or the raw
      answer of the service. */
  datatype AsyncAnswer = PayloadOnly(payload: map<string, string>) | Response(body: string)

  /** What `query_object` returns: the payload, or the parsed answer. */
  datatype Answer<T> = Payload(payload: map<string, string>) | Parsed(table: T)

  /** A result together with the requests made to produce it. */
  datatype Run<A> = Run(calls: seq<Call>, answer: A)

  /** The request dictionary for an object name; a name that is not a string
      fails the assertion before anything is built. */
  function RequestPayload(objectName: PyValue): (r: Result<map<string, string>>)
    ensures r.Err? <==> !objectName.PyStr?
    ensures r.Err? ==> r.error == AssertionError
    ensures r.Ok? ==> r.value.Keys == {OBJECT_NAME, USERNAME_KEY, PASSWORD_KEY, CONTENT_TYPE_KEY}
    ensures r.Ok? ==> r.value[OBJECT_NAME] == objectName.s
    ensures r.Ok? ==> r.value[USERNAME_KEY] == USERNAME && r.value[PASSWORD_KEY] == PASSWORD
    ensures r.Ok? ==> r.value[CONTENT_TYPE_KEY] == CONTENT_TYPE
  {
    if !objectName.PyStr? then Err(AssertionError)
    else
      Ok(map[OBJECT_NAME := objectName.s,
             USERNAME_KEY := USERNAME,
             PASSWORD_KEY := PASSWORD,
             CONTENT_TYPE_KEY := CONTENT_TYPE])
  }

  /** `query_object_async`: the payload when only the payload is asked for,
      with no request made; otherwise exactly one POST of the payload to the
      observation service, whose raw answer is returned. */
  function QueryObjectAsync(cfg: Config, objectName: PyValue, getQueryPayload: bool, send: Call -> string)
    : (r: Result<Run<AsyncAnswer>>)
    ensures r.Err? <==> !objectName.PyStr?
    ensures r.Err? ==> r.error == AssertionError
    ensures r.Ok? && getQueryPayload ==>
              r.value.calls == [] && r.value.answer == PayloadOnly(RequestPayload(objectName).value)
    ensures r.Ok? && !getQueryPayload ==>
              && |r.value.calls| == 1
              && r.value.calls[0] == Post(cfg.obsUrl, RequestPayload(objectName).value, cfg.timeout)
              && r.value.answer == Response(send(r.value.calls[0]))
  {
    var payload :- RequestPayload(objectName);
    if getQueryPayload then Ok(Run([], PayloadOnly(payload)))
    else
      var call := Post(cfg.obsUrl, payload, cfg.timeout);
      Ok(Run([call], Response(send(call))))
  }

  /** `query_object`: runs the asynchronous query; hands its payload back
      unchanged when only the payload is asked for, and otherwise parses the
      service's answer. */
  function QueryObject<T>(cfg: Config, objectName: PyValue, getQueryPayload: bool, send: Call -> string,
                          parse: string -> T): (r: Result<Run<Answer<T>>>)
    ensures r.Err? <==> !objectName.PyStr?
    ensures r.Ok? && getQueryPayload ==> r.value.calls == [] && r.value.answer.Payload?
    ensures r.Ok? && !getQueryPayload ==> |r.value.calls| == 1 && r.value.answer.Parsed?
  {
    var run :- QueryObjectAsync(cfg, objectName, getQueryPayload, send);
    match run.answer
    case PayloadOnly(payload) => Ok(Run(run.calls, Payload(payload)))
    case Response(body) => Ok(Run(run.calls, Parsed(parse(body))))
  }

  /** The payload `query_object` returns is exactly the one
      `query_object_async` built, and no request is made for it. */
  lemma PayloadPassesThrough<T>(cfg: Config, name: string, send: Call -> string, parse: string -> T)
    ensures QueryObject(cfg, PyStr(name), true, send, parse)
            == Ok(Run([], Payload(RequestPayload(PyStr(name)).value)))
    ensures QueryObjectAsync(cfg, PyStr(name), true, send).value.answer.payload
            == QueryObject(cfg, PyStr(name), true, send, parse).value.answer.payload
  {
  }

  /** Otherwise the parsed table is the parse of the answer to the one POST
      that `query_object_async` made. */
  lemma ParsedAnswerOfThePost<T>(cfg: Config, name: string, send: Call -> string, parse: string -> T)
    ensures var r := QueryObject(cfg, PyStr(name), false, send, parse);
            && r.Ok?
            && r.value.calls == [Post(cfg.obsUrl, RequestPayload(PyStr(name)).value, cfg.timeout)]
            && r.value.answer == Parsed(parse(send(r.value.calls[0])))
  {
  }

  /** The payload does not depend on the configuration or on the `send`
      function: only on the name. */
  lemma PayloadDependsOnlyOnName(cfg1: Config, cfg2: Config, name: string, send1: Call -> string,
                                 send2: Call -> string)
    ensures QueryObjectAsync(cfg1, PyStr(name), true, send1) == QueryObjectAsync(cfg2, PyStr(name), true, send2)
  {
  }
}

=== FILE: numerals.dfy ===
/** Decimal numerals as Python's `str(int)`, `int(str)` and `float(str)`
    write and read them.

    Only the ASCII digits are modelled; `float` literals are recognised but
    kept as text (no floating-point value is computed).
 */
module Numerals {
  import opened Outcome
  import opened Text

  predicate IsDigit(c: char)
  {
    '0' <= c <= '9'
  }

  predicate AllDigits(s: string)
  {
    forall i :: 0 <= i < |s| ==> IsDigit(s[i])
  }

  function DigitChar(d: nat): (c: char)
    requires d < 10
    ensures IsDigit(c)
  {
    (48 + d) as char
  }

  function DigitValue(c: char): (d: nat)
    requires IsDigit(c)
    ensures d < 10
  {
    c as int - 48
  }

  /** The decimal digits of `n`, most significant first, without leading zeros. */
  function Digits(n: nat): (r: string)
    ensures |r| >= 1 && AllDigits(r)
    ensures |r| > 1 ==> r[0] != '0'
    decreases n
  {
    if n < 10 then [DigitChar(n)] else Digits(n / 10) + [DigitChar(n % 10)]
  }

  /** `str(n)` for a Python int. */
  function RenderInt(n: int): (r: string)
    ensures |r| >= 1
    ensures r[0] == '-' <==> n < 0
    ensures forall i :: 0 <= i < |r| ==> IsDigit(r[i]) || (i == 0 && r[i] == '-')
    ensures n >= 0 && |r| > 1 ==> r[0] != '0'
    ensures n < 0 ==> |r| > 1 && r[1] != '0'
  {
    if n < 0 then "-" + Digits(-n) else Digits(n)
  }

  /** The number a string of decimal digits denotes. */
  function DigitsValue(s: string): nat
    requires AllDigits(s)
  {
    if s == [] then 0 else 10 * DigitsValue(s[..|s| - 1]) + DigitValue(s[|s| - 1])
  }

  lemma {:induction false} DigitsValueOfDigits(n: nat)
    ensures DigitsValue(Digits(n)) == n
    decreases n
  {
    if n >= 10 {
      var d := Digits(n);
      assert d[..|d| - 1] == Digits(n / 10);
      DigitsValueOfDigits(n / 10);
    }
  }

  predicate IsSign(c: char)
  {
    c == '+' || c == '-'
  }

  /** `s` without one leading sign character. */
  function Unsigned(s: string): (r: string)
    ensures r == s || (|s| > 0 && IsSign(s[0]) && r == s[1..])
  {
    if |s| > 0 && IsSign(s[0]) then s[1..] else s
  }

  /** Python's `digitpart`: digits, with single underscores allowed between two digits. */
  predicate IsDigitPart(s: string)
  {
    && |s| > 0
    && IsDigit(s[0])
    && IsDigit(s[|s| - 1])
    && (forall i :: 0 <= i < |s| ==> IsDigit(s[i]) || s[i] == '_')
    && !Contains(s, "__")
  }

  /** `s` with its underscores removed. */
  function DropUnderscores(s: string): (r: string)
    ensures (forall i :: 0 <= i < |s| ==> IsDigit(s[i]) || s[i] == '_') ==> AllDigits(r)
  {
    if s == [] then []
    else if s[0] == '_' then DropUnderscores(s[1..])
    else [s[0]] + DropUnderscores(s[1..])
  }

  lemma {:induction false} DropUnderscoresOfDigits(s: string)
    requires AllDigits(s)
    ensures DropUnderscores(s) == s
  {
    if s != [] {
      DropUnderscoresOfDigits(s[1..]);
      assert s == [s[0]] + s[1..];
    }
  }

  lemma {:induction false} DigitsHaveNoUnderscores(s: string)
    requires AllDigits(s)
    ensures !Contains(s, "__")
  {
    if s != [] {
      assert !StartsWith(s, "__") by {
        if |s| >= 2 {
          assert s[..2][0] == s[0];
        }
      }
      DigitsHaveNoUnderscores(s[1..]);
    }
  }

  /** Whether Python's `int(s)` accepts the (already stripped) string `s`. */
  predicate IsIntLiteral(s: string)
  {
    IsDigitPart(Unsigned(s))
  }

  /** `int(s)` for a stripped string: `None` where Python raises `ValueError`. */
  function ParseInt(s: string): (r: Option<int>)
    ensures r.Some? <==> IsIntLiteral(s)
    ensures r.Some? && |s| > 0 && s[0] == '-' ==> r.value <= 0
    ensures r.Some? && (|s| == 0 || s[0] != '-') ==> r.value >= 0
    ensures r.Some? ==> |s| > 0 && AllDigits(DropUnderscores(Unsigned(s)))
    ensures r.Some? ==>
              var magnitude: int := DigitsValue(DropUnderscores(Unsigned(s)));
              r.value == if s[0] == '-' then -magnitude else magnitude
  {
    var body := Unsigned(s);
    if !IsDigitPart(body) then None
    else
      var magnitude: int := DigitsValue(DropUnderscores(body));
      if s[0] == '-' then Some(-magnitude) else Some(magnitude)
  }

  /** Reading back what `str` wrote gives the same integer. */
  lemma IntRoundTrip(n: int)
    ensures ParseInt(RenderInt(n)) == Some(n)
  {
    var m: nat := if n < 0 then -n else n;
    var d, r := Digits(m), RenderInt(n);
    assert Unsigned(r) == d by {
      if n < 0 {
        assert r == "-" + d && r[1..] == d;
      }
    }
    assert IsDigitPart(d) by {
      DigitsHaveNoUnderscores(d);
    }
    assert DigitsValue(DropUnderscores(d)) == m by {
      DropUnderscoresOfDigits(d);
      DigitsValueOfDigits(m);
    }
  }

  /** Position of the first exponent marker `e` or `E` in `s`, or `|s|`. */
  function ExponentAt(s: string): (k: nat)
    ensures k <= |s|
    ensures k < |s| ==> s[k] == 'e' || s[k] == 'E'
    ensures forall i :: 0 <= i < k ==> s[i] != 'e' && s[i] != 'E'
  {
    if s == [] then 0
    else if s[0] == 'e' || s[0] == 'E' then 0
    else 1 + ExponentAt(s[1..])
  }

  /** Python's `pointfloat`: `[digitpart] "." [digitpart]` with at least one digit part. */
  predicate IsPointFloat(s: string)
  {
    && '.' in s
    && var i := IndexOf(s, '.');
       var whole := s[..i];
       var fraction := s[i + 1..];
       && (whole == [] || IsDigitPart(whole))
       && (fraction == [] || IsDigitPart(fraction))
       && (whole != [] || fraction != [])
  }

  /** Whether Python's `float(s)` accepts a stripped string `s` written with a
      decimal point: a sign, a point-float and an optional signed exponent. */
  predicate IsFloatLiteral(s: string)
  {
    var u := Unsigned(s);
    var k := ExponentAt(u);
    IsPointFloat(u[..k]) && (k == |u| || IsDigitPart(Unsigned(u[k + 1..])))
  }
}

=== FILE: outcome.dfy ===
/** Failure-carrying values used across the model.

    The modelled code signals failure by raising Python exceptions; each
    exception it can raise becomes one `Error` variant, and an operation that
    can raise returns a `Result`.
 */
module Outcome {

  /** The Python exceptions the modelled operations raise. */
  datatype Error =
    | IndexError(what: string)         // indexing an empty string or list
    | ValueError(what: string)         // rejected argument or unparsable number
    | UnboundLocalError(what: string)  // a local read before any assignment
    | AssertionError                   // a failed `assert`

  /** Either a value or the exception that replaced it. */
  datatype Result<+T> = Ok(value: T) | Err(error: Error) {

    predicate IsFailure() {
      Err?
    }

    function PropagateFailure<U>(): Result<U>
      requires Err?
    {
      Err(error)
    }

    function Extract(): T
      requires Ok?
    {
      value
    }
  }

  /** Python's `None` or a present value. */
  datatype Option<+T> = None | Some(value: T)
}

=== FILE: pyvalues.dfy ===
/** The argument values callers hand to the query methods as keyword
    arguments, and how `"{0}".format(value)` renders them.
 */
module PyValues {
  import opened Numerals
  import opened Outcome

  /** A Python argument value: a string, an int, a bool, `None`, or any other
      value (a float, a list, ...), which is given by the text its own
      formatting produces. */
  datatype PyValue = PyStr(s: string) | PyInt(i: int) | PyBool(b: bool) | PyNone | PyOther(formatted: string)

  /** `"{0}".format(v)`: the text a caller's value is sent as. */
  function Render(v: PyValue): (r: string)
    ensures v.PyStr? ==> r == v.s
    ensures v.PyInt? ==> r == RenderInt(v.i) && ParseInt(r) == Some(v.i)
    ensures v.PyBool? ==> r == (if v.b then "True" else "False")
    ensures v.PyNone? ==> r == "None"
    ensures v.PyOther? ==> r == v.formatted
  {
    match v
    case PyStr(s) => s
    case PyInt(i) => IntRoundTrip(i); RenderInt(i)
    case PyBool(b) => if b then "True" else "False"
    case PyNone => "None"
    case PyOther(formatted) => formatted
  }
}

=== FILE: text.dfy ===
/** Python's string and bytes primitives used by the modelled code, over
    sequences: `in` on sub-sequences, `split` on a one-element separator,
    `join`, `startswith` and `strip`.
 */
module Text {

  /** Position of the first occurrence of `x` in `s`, or `|s|` when `x`
      does not occur. */
  function Find<T(==)>(s: seq<T>, x: T): (i: nat)
    ensures i <= |s| && x !in s[..i]
    ensures i < |s| ==> s[i] == x
    ensures i == |s| <==> x !in s
  {
    if |s| == 0 then 0
    else if s[0] == x then 0
    else
      var j := Find(s[1..], x);
      assert s[..1 + j] == [s[0]] + s[1..][..j];
      1 + j
  }

  /** Position of the first occurrence of `x` in `s`. */
  function IndexOf<T(==)>(s: seq<T>, x: T): (i: nat)
    requires x in s
    ensures i < |s| && s[i] == x
    ensures x !in s[..i]
  {
    Find(s, x)
  }

  /** Position of the last occurrence of `x` in `s`. */
  function LastIndexOf<T(==)>(s: seq<T>, x: T): (i: nat)
    requires x in s
    ensures i < |s| && s[i] == x
    ensures x !in s[i + 1..]
  {
    if s[|s| - 1] == x then |s| - 1
    else
      assert x in s[..|s| - 1] by {
        var k :| 0 <= k < |s| && s[k] == x;
        assert s[..|s| - 1][k] == x;
      }
      var j := LastIndexOf(s[..|s| - 1], x);
      assert s[j + 1..] == s[..|s| - 1][j + 1..] + [s[|s| - 1]];
      j
  }

  /** An occurrence of `x` that no earlier element equals is the first one. */
  lemma IndexOfUnique<T>(s: seq<T>, x: T, k: nat)
    requires k < |s| && s[k] == x && x !in s[..k]
    ensures Find(s, x) == k && IndexOf(s, x) == k
  {
    var i := Find(s, x);
    assert s[..i + 1][i] == x;
    assert s[..k + 1][k] == x;
  }

  /** `s.split(sep)` for a one-element separator: the maximal pieces of `s`
      between occurrences of `sep`; there is always at least one piece. */
  function Split<T(==)>(s: seq<T>, sep: T): (r: seq<seq<T>>)
    ensures |r| >= 1
    ensures |r| == 1 <==> sep !in s
    decreases |s|
  {
    var i := Find(s, sep);
    if i < |s| then [s[..i]] + Split(s[i + 1..], sep) else [s]
  }

  /** No piece of a split holds the separator. */
  lemma {:induction false} SplitPiecesFree<T>(s: seq<T>, sep: T)
    ensures forall k :: 0 <= k < |Split(s, sep)| ==> sep !in Split(s, sep)[k]
    decreases |s|
  {
    if sep in s {
      var i := IndexOf(s, sep);
      SplitPiecesFree(s[i + 1..], sep);
      SplitAtFirst(s, sep, i);
    }
  }

  /** `s.split(sep, 1)[0]`: the part of `s` before its first `sep`. */
  function Before<T(==)>(s: seq<T>, sep: T): (r: seq<T>)
    ensures |r| <= |s| && r == s[..|r|] && sep !in r
    ensures |r| == |s| <==> sep !in s
    ensures |r| < |s| ==> s[|r|] == sep
  {
    if sep in s then s[..IndexOf(s, sep)] else s
  }

  /** Cutting once keeps the first piece of the full split. */
  lemma BeforeIsFirstPiece<T>(s: seq<T>, sep: T)
    ensures Before(s, sep) == Split(s, sep)[0]
  {
    if sep in s {
      SplitAtFirst(s, sep, IndexOf(s, sep));
    }
  }

  /** `sep.join(parts)`. */
  function Join<T>(parts: seq<seq<T>>, sep: T): seq<T>
  {
    if |parts| == 0 then []
    else if |parts| == 1 then parts[0]
    else parts[0] + [sep] + Join(parts[1..], sep)
  }

  /** Joining a piece in front of at least one more piece puts a separator
      between them. */
  lemma JoinCons<T>(p: seq<T>, rest: seq<seq<T>>, sep: T)
    requires |rest| >= 1
    ensures Join([p] + rest, sep) == p + [sep] + Join(rest, sep)
  {
    assert ([p] + rest)[1..] == rest;
  }

  /** The pieces of `s` are its text before the first separator, at `i`,
      followed by the pieces of the text after it. */
  lemma SplitAtFirst<T>(s: seq<T>, sep: T, i: nat)
    requires i < |s| && s[i] == sep && sep !in s[..i]
    ensures Split(s, sep) == [s[..i]] + Split(s[i + 1..], sep)
  {
    IndexOfUnique(s, sep, i);
  }

  /** Joining the pieces of a split restores the original. */
  lemma {:induction false} JoinSplit<T>(s: seq<T>, sep: T)
    ensures Join(Split(s, sep), sep) == s
    decreases |s|
  {
    if sep in s {
      var i := IndexOf(s, sep);
      var rest := s[i + 1..];
      calc {
        Join(Split(s, sep), sep);
      == { SplitAtFirst(s, sep, i); }
        Join([s[..i]] + Split(rest, sep), sep);
      == { JoinCons(s[..i], Split(rest, sep), sep); }
        s[..i] + [sep] + Join(Split(rest, sep), sep);
      == { JoinSplit(rest, sep); }
        s[..i] + [sep] + rest;
      == { assert s == s[..i] + [sep] + rest; }
        s;
      }
    }
  }

  /** Splitting a join of separator-free pieces gives the pieces back. */
  lemma {:induction false} SplitJoin<T>(parts: seq<seq<T>>, sep: T)
    requires |parts| >= 1
    requires forall k :: 0 <= k < |parts| ==> sep !in parts[k]
    ensures Split(Join(parts, sep), sep) == parts
    decreases |parts|
  {
    if |parts| > 1 {
      var p, tail := parts[0], parts[1..];
      var rest := Join(tail, sep);
      var s := p + [sep] + rest;
      assert Join(parts, sep) == s by {
        assert parts == [p] + tail;
        JoinCons(p, tail, sep);
      }
      assert s[..|p|] == p && s[|p|] == sep && s[|p| + 1..] == rest;
      SplitAtFirst(s, sep, |p|);
      SplitJoin(tail, sep);
      assert parts == [p] + tail;
    }
  }

  /** `seg` starts at `j` in `s` and is the piece just before the last
      `sep`: it starts `s` or follows a separator, and is followed by a
      separator and then by separator-free text to the end. */
  predicate PieceAt<T(==)>(s: seq<T>, sep: T, seg: seq<T>, j: int)
  {
    && 0 <= j && j + |seg| < |s|
    && s[j..j + |seg|] == seg
    && sep !in seg
    && s[j + |seg|] == sep
    && sep !in s[j + |seg| + 1..]
    && (j == 0 || s[j - 1] == sep)
  }

  ghost predicate IsPieceBeforeLast<T>(s: seq<T>, sep: T, seg: seq<T>)
  {
    exists j :: PieceAt(s, sep, seg, j)
  }

  /** `s.split(sep)[-2]` is the piece before the last separator. */
  lemma PieceBeforeLast<T>(s: seq<T>, sep: T)
    requires sep in s
    ensures |Split(s, sep)| >= 2
    ensures IsPieceBeforeLast(s, sep, Split(s, sep)[|Split(s, sep)| - 2])
  {
    var seg, j := PieceBeforeLastAt(s, sep);
    SamePiece(s, sep, seg, Split(s, sep)[|Split(s, sep)| - 2], j);
  }

  lemma SamePiece<T>(s: seq<T>, sep: T, a: seq<T>, b: seq<T>, j: int)
    requires PieceAt(s, sep, a, j) && a == b
    ensures PieceAt(s, sep, b, j)
  {
  }

  /** The same, naming the piece `seg` and the position `j` where it starts. */
  lemma {:induction false} PieceBeforeLastAt<T>(s: seq<T>, sep: T) returns (seg: seq<T>, j: nat)
    requires sep in s
    ensures |Split(s, sep)| >= 2 && Split(s, sep)[|Split(s, sep)| - 2] == seg
    ensures PieceAt(s, sep, seg, j)
    decreases |s|, 1
  {
    var i := IndexOf(s, sep);
    if sep !in s[i + 1..] {
      seg, j := s[..i], 0;
      assert |Split(s, sep)| >= 2 && Split(s, sep)[|Split(s, sep)| - 2] == seg && PieceAt(s, sep, seg, j) by {
        OnlySeparator(s, sep, i);
      }
    } else {
      seg, j := PieceBeforeLastStep(s, sep, i);
    }
  }

  /** The inductive step: the piece found after the first separator, at `i`,
      is the piece of the whole sequence, shifted past that separator. */
  lemma {:induction false} PieceBeforeLastStep<T>(s: seq<T>, sep: T, i: nat) returns (seg: seq<T>, j: nat)
    requires i < |s| && s[i] == sep && sep !in s[..i] && sep in s[i + 1..]
    ensures |Split(s, sep)| >= 2 && Split(s, sep)[|Split(s, sep)| - 2] == seg
    ensures PieceAt(s, sep, seg, j)
    decreases |s|, 0
  {
    var j';
    seg, j' := PieceBeforeLastAt(s[i + 1..], sep);
    j := ShiftPiece(s, sep, i, seg, j');
    SecondToLastPiece(s, sep, i, seg);
  }

  /** A piece found at `j'` in the rest after the separator at `i` is found
      at `j' + i + 1` in `s`. */
  lemma ShiftPiece<T>(s: seq<T>, sep: T, i: nat, seg: seq<T>, j': nat) returns (j: nat)
    requires i < |s| && s[i] == sep && PieceAt(s[i + 1..], sep, seg, j')
    ensures PieceAt(s, sep, seg, j)
  {
    var rest := s[i + 1..];
    assert s[j' + i + 1..j' + i + 1 + |seg|] == rest[j'..j' + |seg|];
    assert s[j' + |seg| + i + 2..] == rest[j' + |seg| + 1..];
    assert j' == 0 || s[j' + i] == rest[j' - 1];
    j := j' + i + 1;
  }

  lemma OnlySeparator<T>(s: seq<T>, sep: T, i: nat)
    requires i < |s| && s[i] == sep && sep !in s[..i] && sep !in s[i + 1..]
    ensures |Split(s, sep)| == 2 && Split(s, sep)[0] == s[..i]
    ensures PieceAt(s, sep, s[..i], 0)
  {
    calc {
      Split(s, sep);
    == { SplitAtFirst(s, sep, i); }
      [s[..i]] + Split(s[i + 1..], sep);
    ==
      [s[..i], s[i + 1..]];
    }
  }

  /** With a separator after the first one, at `i`, the piece before the last
      separator is the one found after the first separator. */
  lemma SecondToLastPiece<T>(s: seq<T>, sep: T, i: nat, seg: seq<T>)
    requires i < |s| && s[i] == sep && sep !in s[..i]
    requires |Split(s[i + 1..], sep)| >= 2 && Split(s[i + 1..], sep)[|Split(s[i + 1..], sep)| - 2] == seg
    ensures |Split(s, sep)| >= 2 && Split(s, sep)[|Split(s, sep)| - 2] == seg
  {
    SplitSecondToLast(s, sep, i);
  }

  /** The piece before the last separator is unchanged by cutting off the
      first piece. */
  lemma SplitSecondToLast<T>(s: seq<T>, sep: T, i: nat)
    requires i < |s| && s[i] == sep && sep !in s[..i] && |Split(s[i + 1..], sep)| >= 2
    ensures |Split(s, sep)| == |Split(s[i + 1..], sep)| + 1
    ensures Split(s, sep)[|Split(s, sep)| - 2] == Split(s[i + 1..], sep)[|Split(s[i + 1..], sep)| - 2]
  {
    var parts, tail := Split(s, sep), Split(s[i + 1..], sep);
    SplitAtFirst(s, sep, i);
    ConsSecondToLast(parts, s[..i], tail);
  }

  lemma ConsSecondToLast<U>(parts: seq<U>, h: U, tail: seq<U>)
    requires parts == [h] + tail && |tail| >= 2
    ensures |parts| == |tail| + 1 && parts[|parts| - 2] == tail[|tail| - 2]
  {
  }

  /** At most one piece sits before the last separator. */
  lemma PieceBeforeLastUnique<T>(s: seq<T>, sep: T, a: seq<T>, b: seq<T>)
    requires IsPieceBeforeLast(s, sep, a) && IsPieceBeforeLast(s, sep, b)
    ensures a == b
  {
    var ja :| PieceAt(s, sep, a, ja);
    var jb :| PieceAt(s, sep, b, jb);
    PieceAtUnique(s, sep, a, ja, b, jb);
  }

  lemma PieceAtUnique<T>(s: seq<T>, sep: T, a: seq<T>, ja: int, b: seq<T>, jb: int)
    requires PieceAt(s, sep, a, ja) && PieceAt(s, sep, b, jb)
    ensures a == b
  {
    var ka, kb := ja + |a|, jb + |b|;
    assert forall k :: ka < k < |s| ==> s[k] == s[ka + 1..][k - ka - 1];
    assert forall k :: kb < k < |s| ==> s[k] == s[kb + 1..][k - kb - 1];
    assert ka == kb;
    assert forall k :: ja <= k < ka ==> s[k] == a[k - ja];
    assert forall k :: jb <= k < kb ==> s[k] == b[k - jb];
    assert ja == jb;
  }

  /** An element in neither part is not in their concatenation. */
  lemma NotInConcat<T>(a: seq<T>, b: seq<T>, x: T)
    requires x !in a && x !in b
    ensures x !in a + b
  {
  }

  /** `s.startswith(prefix)`. */
  predicate StartsWith<T(==)>(s: seq<T>, prefix: seq<T>)
  {
    |prefix| <= |s| && s[..|prefix|] == prefix
  }

  /** `sub in s` for sequences: `sub` occurs contiguously somewhere in `s`. */
  predicate Contains<T(==)>(s: seq<T>, sub: seq<T>)
    decreases |s|
  {
    StartsWith(s, sub) || (|s| > 0 && Contains(s[1..], sub))
  }

  /** An occurrence at a known position witnesses containment. */
  lemma {:induction false} ContainsAt<T>(s: seq<T>, sub: seq<T>, i: nat)
    requires i <= |s| && StartsWith(s[i..], sub)
    ensures Contains(s, sub)
    decreases i
  {
    if i > 0 {
      assert s[1..][i - 1..] == s[i..];
      ContainsAt(s[1..], sub, i - 1);
    }
  }

  /** Every element of a contained sequence is an element of the container. */
  lemma {:induction false} ContainsElement<T>(s: seq<T>, sub: seq<T>, x: T)
    requires Contains(s, sub) && x in sub
    ensures x in s
    decreases |s|
  {
    if StartsWith(s, sub) {
      var k :| 0 <= k < |sub| && sub[k] == x;
      assert s[k] == x;
    } else {
      ContainsElement(s[1..], sub, x);
    }
  }

  /** Characters Python's `str.strip()` removes (`str.isspace`). */
  predicate IsSpace(c: char)
  {
    var n := c as int;
    n == 0x20 || 0x09 <= n <= 0x0D || 0x1C <= n <= 0x1F || n == 0x85 || n == 0xA0
    || n == 0x1680 || 0x2000 <= n <= 0x200A || n == 0x2028 || n == 0x2029
    || n == 0x202F || n == 0x205F || n == 0x3000
  }

  /** Neither end of `s` is whitespace. */
  predicate IsStripped(s: string)
  {
    |s| == 0 || (!IsSpace(s[0]) && !IsSpace(s[|s| - 1]))
  }

  /** `s.lstrip()`. */
  function StripLeft(s: string): (r: string)
    ensures |r| <= |s| && r == s[|s| - |r|..]
    ensures |r| == 0 || !IsSpace(r[0])
    ensures forall i :: 0 <= i < |s| - |r| ==> IsSpace(s[i])
  {
    if |s| > 0 && IsSpace(s[0]) then StripLeft(s[1..]) else s
  }

  /** `s.rstrip()`. */
  function StripRight(s: string): (r: string)
    ensures |r| <= |s| && r == s[..|r|]
    ensures |r| == 0 || !IsSpace(r[|r| - 1])
    ensures forall i :: |r| <= i < |s| ==> IsSpace(s[i])
  {
    if |s| > 0 && IsSpace(s[|s| - 1]) then StripRight(s[..|s| - 1]) else s
  }

  /** `s.strip()`: `s` without its leading and trailing whitespace. */
  function Strip(s: string): (r: string)
    ensures IsStripped(r)
    ensures forall c :: c in r ==> c in s
  {
    var l := StripLeft(s);
    var r := StripRight(l);
    assert forall c :: c in r ==> c in l;
    r
  }

  /** Leading blanks before a non-blank start are exactly what `lstrip` removes. */
  lemma {:induction false} StripLeftPadded(pre: string, y: string)
    requires forall i :: 0 <= i < |pre| ==> IsSpace(pre[i])
    requires |y| > 0 && !IsSpace(y[0])
    ensures StripLeft(pre + y) == y
    decreases |pre|
  {
    if |pre| > 0 {
      assert (pre + y)[1..] == pre[1..] + y;
      StripLeftPadded(pre[1..], y);
    }
  }

  /** Trailing blanks after a non-blank end are exactly what `rstrip` removes. */
  lemma {:induction false} StripRightPadded(y: string, post: string)
    requires forall i :: 0 <= i < |post| ==> IsSpace(post[i])
    requires |y| > 0 && !IsSpace(y[|y| - 1])
    ensures StripRight(y + post) == y
    decreases |post|
  {
    if |post| > 0 {
      assert (y + post)[..|y + post| - 1] == y + post[..|post| - 1];
      StripRightPadded(y, post[..|post| - 1]);
    }
  }

  /** Stripping a string padded with blanks recovers it when it has no
      whitespace at its own ends. */
  lemma StripPadded(pre: string, x: string, post: string)
    requires forall i :: 0 <= i < |pre| ==> IsSpace(pre[i])
    requires forall i :: 0 <= i < |post| ==> IsSpace(post[i])
    requires |x| > 0 && IsStripped(x)
    ensures Strip(pre + x + post) == x
  {
    assert pre + x + post == pre + (x + post);
    StripLeftPadded(pre, x + post);
    StripRightPadded(x, post);
  }
}
